=== FILE: README.md ===
# Resume analyser: text normaliser and engine state

This project models the core of a small resume-analysis service built on
retrieval-augmented generation. The class `PDFQueryEngine` in `rag_pipeline.py`
holds two pieces of state: a cleaned job description and a vector store built
from the pages of an uploaded PDF. Its one piece of real logic is the text
normaliser `preprocess_text`. It applies seven regular-expression stages in a
fixed order:

1. lower-case the text;
2. mask e-mail addresses as ` EMAIL `;
3. mask phone numbers as ` PHONE `;
4. mask URLs as ` URL `;
5. turn punctuation into spaces;
6. collapse runs of whitespace into one space;
7. collapse runs of newlines, then strip.

The model is written in Dafny and is pure throughout:

- **Regex substitution.** `Regex.Sub` is a generic left-to-right scanner that
  replaces leftmost, non-overlapping matches, as Python's `re.sub` does. Each
  pattern's `MatchAt` follows the expression's own matching, backtracking
  included. The patterns are e-mail, phone, URL, punctuation, whitespace run
  and newline run.
- **Masking stages.** The modules `EmailMask`, `PhoneMask` and `UrlMask`
  each define one masking stage (`MaskEmails`, `MaskPhones`, `MaskUrls`) and
  characterise what its expression matches. `EmailMask` also proves the scan
  equal to an independent token-by-token reference.
- **Normaliser.** The other stages and `preprocess_text` itself
  (`PreprocessText`) are in `Normaliser`, together with the shape every
  output has.
- **Whole-pipeline theorems.** These are split by concern:
  - `Provenance`: where upper-case letters come from, tracked by a record of
    the origin of each output character.
  - `Idempotence`: concrete facts about running the normaliser twice.
  - `TokenSurvival`: an e-mail address, a phone number, or a URL token
    without `@` or digits, delimited by whitespace, leaves its mask word in
    the output, whatever text surrounds it.
- **Engine state.** `Engine` models the record `{jobDescription, index}` and
  the operations on it:
  - `set_job_description`;
  - `load_pdf`, which drops the old index, cleans each page, splits it and
    builds a new index;
  - the fail-fast checks of `ask_question`.

Character classes are ASCII and follow Python's own classification of that
range (`CharClasses`).

## Model

| member | source | states |
|---|---|---|
| CharClasses.Lower | rag_pipeline.py:52 | Lower-casing keeps the length. No upper-case letter remains. Each upper-case letter becomes its lower-case partner, every other character is kept, and whether a character is a word character or whitespace does not change. |
| CharClasses.LowerIdempotent | rag_pipeline.py:52 | Lower-casing twice is the same as lower-casing once. |
| Regex.MatchAt | rag_pipeline.py:53-58 | None of the six expressions matches the empty string: a match tried at `i` ends after `i` and inside the text. |
| Regex.SubSkip | rag_pipeline.py:53-58 | Where the expression matches at no position of a stretch, `re.sub` copies that stretch unchanged. |
| Regex.SubIdentity | rag_pipeline.py:53-58 | When the expression matches nowhere, `re.sub` returns its input. |
| Regex.SubCharacters | rag_pipeline.py:53-58 | Every character `re.sub` returns comes from the input or from the replacement string. |
| Regex.SubReplacesAt | rag_pipeline.py:53-58 | Where the expression matches at a position, whatever lies before it, the replacement string appears in the output: the scan either reaches that position or has already jumped over it with a match of its own. |
| Regex.MaskKeepsBlankEnds | rag_pipeline.py:53-55 | The three masks keep a leading or trailing whitespace character a whitespace character, because their replacements start and end with a space. |
| Normaliser.PunctuationToSpace | rag_pipeline.py:56 | Every character that is neither `\w` nor `\s` becomes one space. Word and whitespace characters stay where they are, and the length is unchanged. |
| Normaliser.CollapseWhitespace | rag_pipeline.py:57 | After the `\s+` substitution, the only whitespace left is the plain space and no two spaces are adjacent. The non-whitespace characters are exactly those of the input, in order. The result is empty only for empty input, and it starts or ends with a space exactly when the input starts or ends with whitespace. |
| Normaliser.SpacelessUnchanged | rag_pipeline.py:57 | Text without whitespace passes through the `\s+` substitution unchanged. |
| Normaliser.CollapseSplitsAtRun | rag_pipeline.py:57 | A maximal whitespace run becomes exactly one space, whether it lies between non-whitespace characters or at either end. The text before and after it collapses as it would on its own. Applying this at each run in turn, with `SpacelessUnchanged` for the pieces, gives the result on any text. |
| Normaliser.CollapseSplitsBeside | rag_pipeline.py:57 | Where no whitespace run crosses the seam between two pieces, the `\s+` substitution of their concatenation is that of each piece in turn. |
| Normaliser.CollapseNewlines | rag_pipeline.py:58 | After the `\n+` substitution no two newlines are adjacent, and a text without newlines is returned unchanged. |
| Normaliser.NewlinesSplitAtRun | rag_pipeline.py:58 | A maximal run of newlines becomes exactly one newline, and the text before and after it is handled as it would be on its own. |
| Normaliser.Strip | rag_pipeline.py:59 | `str.strip()` returns a slice of the input that does not start or end with whitespace. Only whitespace lies outside the slice, on either side. |
| Normaliser.NewlineStageIsNoOp | rag_pipeline.py:57-58 | The output of the whitespace collapse holds no newline, so the newline substitution on line 58 never changes anything. |
| Normaliser.PreprocessText | rag_pipeline.py:50-59 | Every output of `preprocess_text` holds only word characters and spaces. It has no leading or trailing space and no two adjacent spaces. |
| Normaliser.PreprocessDropsPunctuation | rag_pipeline.py:56-59 | No `@`, `.`, `-`, newline or tab survives `preprocess_text`. |
| Normaliser.CollapseKeepsNormalised | rag_pipeline.py:57 | Text made of word characters and single spaces comes through the whitespace collapse unchanged. |
| Normaliser.CleanupFixesNormalised | rag_pipeline.py:56-59 | Text that is already normalised passes unchanged through stages 5, 6 and 7. |
| Normaliser.SymbolsOnlyVanish | rag_pipeline.py:50-59 | A text with no word character and no `@` is cleaned to the empty string. |
| EmailMask.EmailMatchAt | rag_pipeline.py:53 | The backtracking search `EmailBacktrack` is exact: at a position `i`, `\S+@\S+` matches exactly when the whitespace-free run from `i` has an `@` after its first character and before its last. The match then ends where that run ends. |
| EmailMask.MaskEmails | rag_pipeline.py:53 | The e-mail substitution equals an independent token-by-token reference. That reference replaces each whitespace-delimited token holding an inner `@` by ` EMAIL ` and keeps every other token and all whitespace. Text without an `@` is unchanged, and every character of the result comes from the input or from ` EMAIL `. |
| EmailMask.EmailTokenInContext | rag_pipeline.py:53 | A whitespace-delimited token is replaced whole by ` EMAIL ` when it has an `@` with a character on each side, and is kept otherwise. The text before and after it is masked independently. |
| EmailMask.EdgeAtSignsStay | rag_pipeline.py:53 | `@x` and `x@` are not masked. |
| EmailMask.ShortestAddressMasked | rag_pipeline.py:53 | `a@b` becomes ` EMAIL `. |
| PhoneMask.MaskPhones | rag_pipeline.py:54 | Text without a digit passes the phone substitution unchanged, and every character of the result comes from the input or from ` PHONE `. |
| PhoneMask.PhoneMatchIff | rag_pipeline.py:54 | `PhoneMatchAt` is exact: the phone expression matches from `i` to `e` exactly when `s[i..e]` is ten digits, with an optional `-` or `.` after the third and sixth digits, and no word character lies directly on either side. |
| PhoneMask.PhoneMatchesDoNotNest | rag_pipeline.py:54 | No phone match starts strictly inside another. |
| PhoneMask.PhoneSplitsAtBlank | rag_pipeline.py:54 | A phone match contains no whitespace, so at a whitespace character the phone substitution of a text is that of the part before it followed by that of the rest. |
| PhoneMask.PhoneNumberMasked | rag_pipeline.py:54 | A phone number with no word character on either side is replaced by ` PHONE `. The text before it and the text after it are masked exactly as they would be on their own. |
| PhoneMask.SpaceSeparatedPhoneStays | rag_pipeline.py:54 | `123 456 7890` is not masked, because a space is not a separator. |
| PhoneMask.UnderscoreBoundPhoneStays | rag_pipeline.py:54 | `1234567890_` is not masked, because the underscore is a word character and `\b` fails. |
| PhoneMask.DashedPhoneMasked | rag_pipeline.py:54 | `call 555-123-4567` becomes `call  PHONE `. |
| UrlMask.MaskUrls | rag_pipeline.py:55 | Text without an `h` or a `w` passes the URL substitution unchanged, and every character of the result comes from the input or from ` URL `. |
| UrlMask.UrlSplitsAtBlank | rag_pipeline.py:55 | A URL match never crosses a blank, except one that follows `www`. So when `pre` is empty or ends in a blank that does not follow `www`, the URL mask of `pre + x` is the mask of `pre` followed by the mask of `x`. |
| UrlMask.UrlSpanInContext | rag_pipeline.py:55 | A span is `http`, or `www` and any character but a newline, followed by at least one more non-space character. Such a span is replaced whole by ` URL ` when it is followed by a blank or ends the text. The text before and after it is masked independently. This holds when the text before is empty or ends in a blank, unless that blank follows `www`, where the earlier `www` would take the span in. |
| UrlMask.UrlTokenInContext | rag_pipeline.py:55 | A whitespace-free token starting with `http` or `www`, of at least five characters, is replaced whole by ` URL `. The text around it is masked independently. As for `UrlSpanInContext`, the text before must be empty or end in a blank that does not follow `www`. |
| UrlMask.WwwAnyCharInContext | rag_pipeline.py:55 | Because the dot is unescaped, `www`, any character but a newline (a blank included) and a non-empty whitespace-free run are replaced together by ` URL `. The conditions on the surrounding text are those of `UrlSpanInContext`. |
| UrlMask.UrlMatchInToken | rag_pipeline.py:55 | `UrlMatchAt` is exact inside whitespace-free text: the URL expression matches at `k` exactly when `http` or `www` starts there and the text has at least five characters from `k` on. The match then runs to the end of the text. |
| UrlMask.UrlInsideToken | rag_pipeline.py:55 | A URL can start inside a whitespace-free token. The token is cut at the first place it can start: the part before stays and the rest becomes ` URL `. |
| UrlMask.UrlFreeToken | rag_pipeline.py:55 | A whitespace-free token in which no URL can start is left unchanged. |
| UrlMask.BracketedUrl | rag_pipeline.py:55 | A URL in brackets, like `(www.site.com)`, becomes `( URL `: the closing bracket is swallowed. |
| UrlMask.WwwSpaceIsUrl | rag_pipeline.py:55 | Because the dot is unescaped, `www example` becomes ` URL `. |
| UrlMask.WwwNewlineIsNotUrl | rag_pipeline.py:55 | `.` does not match a newline, so `www\nexample` is kept. |
| UrlMask.WwwBlankSwallowsNextToken | rag_pipeline.py:55 | `www http://x.io` becomes a single ` URL `. |
| Provenance.SubTracks | rag_pipeline.py:53-58 | Every substitution stage keeps the record of character origins accurate. An inserted character comes from its stage's replacement, and an upper-case character was inserted by a mask stage. |
| Provenance.UppercaseOnlyFromMasks | rag_pipeline.py:52-56 | Every upper-case letter in the output of `preprocess_text` was inserted by the e-mail, phone or URL mask and belongs to that mask's token. Every other letter is lower-case. |
| Idempotence.PreprocessOfLowered | rag_pipeline.py:52 | Lower-casing the input first does not change the result of `preprocess_text`. |
| Idempotence.PreprocessFixesPlainText | rag_pipeline.py:50-59 | Normalised text with no upper-case letter, no digit and no `h` or `w` is a fixed point of `preprocess_text`. |
| Idempotence.AddressBecomesToken | rag_pipeline.py:50-59 | `preprocess_text("a@b.com")` is `"EMAIL"`. |
| Idempotence.TokenIsLowerCasedAgain | rag_pipeline.py:50-59 | `preprocess_text("EMAIL")` is `"email"`. |
| Idempotence.NotIdempotent | rag_pipeline.py:52-53 | Applying `preprocess_text` twice to `a@b.com` does not give the same result as applying it once. |
| TokenSurvival.EmailReachesOutput | rag_pipeline.py:50-59 | A whitespace-delimited token with an `@` that is neither its first nor its last character leaves the word `EMAIL` in the output of `preprocess_text`, whatever text surrounds it. |
| TokenSurvival.PhoneReachesOutput | rag_pipeline.py:50-59 | A whitespace-delimited phone number (ten digits, with an optional `-` or `.` after the third and the sixth) leaves the word `PHONE` in the output, whatever text surrounds it. |
| TokenSurvival.UrlStageOnSpan | rag_pipeline.py:55 | A URL span followed by whitespace or the end of the text puts ` URL ` into the stage-4 output, whatever precedes it, including a `www` and a blank that swallow it into an earlier match. |
| TokenSurvival.UrlReachesOutput | rag_pipeline.py:50-59 | A whitespace-delimited token without `@` or digits that starts with `http` or `www` once lower-cased and has at least five characters leaves the word `URL` in the output, whatever text surrounds it. |
| Engine.NewEngine | rag_pipeline.py:19-21 | A new engine has neither a job description nor a vector store. |
| Engine.Message | rag_pipeline.py:96-100 | The two checks of `ask_question` raise "Please load a PDF first" and "Please set a job description first using set_job_description()". A failed load carries the loader's or the store's own reason. |
| Engine.SetJobDescription | rag_pipeline.py:45-47 | The description is stored in its cleaned, normalised form, and the index is untouched. |
| Engine.SplitPagesMembers | rag_pipeline.py:76-85 | A chunk is in the split corpus exactly when it carries a page number of the document and is one of that page's pieces. |
| Engine.LoadPdf | rag_pipeline.py:61-92 | The job description is kept. The load succeeds exactly when the pages are read and the store is built, and an index exists afterwards exactly then. A failed read or store leaves the matching error. On success the index holds exactly the chunks split from each page's cleaned text. |
| Engine.LoadForgetsOldIndex | rag_pipeline.py:62-64 | The result of a load does not depend on the index that existed before. |
| Engine.FormatPrompt | rag_pipeline.py:25-34 | The prompt is the template's fixed text with the job description and the question in their slots. In order, it is the head up to `Job Description:`, the description, the middle up to `Question: `, the question, and the trailing blank lines. |
| Engine.AskQuestion | rag_pipeline.py:95-113 | The missing index is checked first, with error `PdfNotLoaded`. An absent or empty job description is checked second, with error `JobDescriptionNotSet`. Otherwise the answer is the oracle's reply to the formatted prompt. |
| Engine.FreshEngineNeedsPdf | rag_pipeline.py:95-97 | A new engine fails with "Please load a PDF first", even though it has no job description either. |
| Engine.FailedLoadLosesIndex | rag_pipeline.py:62-64 | After a failed load, asking a question fails for want of a PDF, even if an index existed before the load. |
| Engine.PunctuationOnlyDescriptionIsNotSet | rag_pipeline.py:99-100 | A description made only of non-word characters other than `@` is stored as the empty string. With a PDF loaded, asking then fails with `JobDescriptionNotSet`. |
| Engine.ExclamationsAreNotADescription | rag_pipeline.py:99-100 | `set_job_description("!!! ...")` followed by a successful load makes `ask_question` fail with "Please set a job description first using set_job_description()". |

## Left out

- `app.py`: the Streamlit page is not part of this model. This covers the upload, the temporary file, the spinner, the error banner and the CSS, which are user interface and file I/O.
- PDF extraction (`PyPDFLoader`, rag_pipeline.py:72-73) is not modelled. Its outcome is a parameter of `LoadPdf`: either a list of page texts or a failure reason.
- The text splitter's internals (rag_pipeline.py:81-85) are not modelled. The splitter is an opaque function parameter that is given the text together with `ChunkSize` and `ChunkOverlap`. Only the order of pages and the page tag of each chunk are modelled.
- Chroma, the OpenAI embeddings and chat model, and `RetrievalQA` are not modelled. Building the store can fail, which is a parameter of `LoadPdf`. The answer is an opaque oracle taking the prompt and the index. Deleting the old collection and exceptions raised during retrieval or by the model are not modelled.
- Deleting `./chroma_db` with `shutil.rmtree` (rag_pipeline.py:66-70) is not modelled. It is a filesystem side effect whose errors are swallowed.
- The NLTK downloads and `stop_words` (rag_pipeline.py:35-43) are not modelled: they are network I/O, and `stop_words` is never used.
- The `print` calls are left out. The count that `load_pdf` prints at rag_pipeline.py:93 is kept: `LoadPdf` returns it as `Success(|chunks|)`.
- Unicode is not modelled. `lower()`, `\w`, `\s` and `\d` are modelled on ASCII. Any other character counts as neither a word character, whitespace nor a digit, and `lower()` keeps it.
- `not self.vector_store` is modelled as "no index". A Chroma store defines no length or truth value of its own, so an index built from zero chunks still counts as present.
- A failed load is modelled as the engine ending with no index and an error value. The model assumes that deleting the old collection (rag_pipeline.py:63) succeeds. A loader or store failure is raised after line 64 has cleared the old store, so the effect on the state is the same. An exception from the delete call itself would leave the old store in place, and that case is not modelled.
- TokenSurvival.UrlReachesOutput: the token must hold no `@` and no digit. An `@` would let stage 2 take it as an e-mail address first, and a digit run inside it could be masked as a phone number; those interactions are not modelled.
- TokenSurvival.EmailReachesOutput: states that the word `EMAIL` occurs in the output, not where. Its position depends on how the punctuation and whitespace stages shorten the text around it.
- TokenSurvival.PhoneReachesOutput: states that the word `PHONE` occurs in the output, not where. Its position depends on how the punctuation and whitespace stages shorten the text around it.
- TokenSurvival.UrlReachesOutput: states that the word `URL` occurs in the output, not where. Its position depends on how the punctuation and whitespace stages shorten the text around it.

## Notes

- The normaliser is not idempotent, and its output is not all lower case. Both follow from the upper-case mask tokens being inserted after lower-casing: see `Idempotence.NotIdempotent` and `Provenance.UppercaseOnlyFromMasks`.
- Most worked examples bind their literal text through a precondition (`requires s == "..."`) rather than writing it inside the `ensures`. A literal there lets the verifier evaluate the whole scan on the constant, which exhausts its resources.

=== FILE: chars.dfy ===
/**
 * Character classes of Python's `re` module and `str` methods, restricted to
 * ASCII: `\w`, `\s`, `\d`, `str.lower` and the whitespace `str.strip` removes.
 * Python classifies the ASCII range as follows; a non-ASCII character is
 * treated here as neither a word character nor whitespace nor a digit.
 */
module CharClasses {

  predicate IsUpper(c: char) {
    'A' <= c <= 'Z'
  }

  predicate IsLowerLetter(c: char) {
    'a' <= c <= 'z'
  }

  /** `\d` */
  predicate IsDigit(c: char) {
    '0' <= c <= '9'
  }

  /** `\w`: letters, digits and the underscore. */
  predicate IsWordChar(c: char) {
    IsUpper(c) || IsLowerLetter(c) || IsDigit(c) || c == '_'
  }

  /**
   * `\s` and `str.isspace`: space, the five controls tab through carriage
   * return (\t \n \v \f \r), and the four separators \x1c to \x1f.
   */
  predicate IsSpace(c: char) {
    c == ' ' || ('\t' <= c <= '\r') || ('\U{1C}' <= c <= '\U{1F}')
  }

  predicate IsNewline(c: char) {
    c == '\n'
  }

  predicate IsNonSpace(c: char) {
    !IsSpace(c)
  }

  /** `str.lower` on one ASCII character. */
  function ToLower(c: char): (r: char)
    ensures !IsUpper(r)
    ensures IsUpper(c) ==> IsLowerLetter(r)
    ensures !IsUpper(c) ==> r == c
    ensures IsWordChar(r) == IsWordChar(c) && IsSpace(r) == IsSpace(c) && IsDigit(r) == IsDigit(c)
  {
    if IsUpper(c) then (c as int + 32) as char else c
  }

  /** `str.lower`: the string with every upper-case letter replaced by its lower-case form. */
  function Lower(s: string): (r: string)
    ensures |r| == |s|
    ensures forall k :: 0 <= k < |r| ==> !IsUpper(r[k])
    ensures forall k :: 0 <= k < |s| && !IsUpper(s[k]) ==> r[k] == s[k]
    ensures forall k :: 0 <= k < |s| && IsUpper(s[k]) ==> IsLowerLetter(r[k]) && r[k] as int == s[k] as int + 32
    ensures forall k :: 0 <= k < |s| ==> IsWordChar(r[k]) == IsWordChar(s[k]) && IsSpace(r[k]) == IsSpace(s[k])
  {
    seq(|s|, k requires 0 <= k < |s| => ToLower(s[k]))
  }

  /** Lowering works character by character, so it distributes over concatenation. */
  lemma LowerAppend(a: string, b: string)
    ensures Lower(a + b) == Lower(a) + Lower(b)
  {
    assert forall k :: 0 <= k < |a| + |b| ==> Lower(a + b)[k] == (Lower(a) + Lower(b))[k];
  }

  /** Lowering twice is lowering once. */
  lemma LowerIdempotent(s: string)
    ensures Lower(Lower(s)) == Lower(s)
  {
  }
}

=== FILE: email.dfy ===
/**
 * Stage 2 of the normaliser, `re.sub(r'\S+@\S+', ' EMAIL ', text)`, seen
 * token by token: a whitespace-delimited token is replaced whole exactly when
 * it holds an `@` with at least one character on each side.
 */
module EmailMask {
  import opened CharClasses
  import opened Regex

  /** A token with an `@` that is neither its first nor its last character. */
  predicate IsEmailToken(t: string) {
    exists j :: 0 < j < |t| - 1 && t[j] == '@'
  }

  /** What becomes of one whitespace-free token: " EMAIL " when it is
    * e-mail-like, the token itself otherwise. */
  function MaskToken(t: string): string {
    if IsEmailToken(t) then " EMAIL " else t
  }

  /** Reference definition: walk the text from `i` token by token, replace
    * every e-mail-like token by " EMAIL " and keep whitespace as it is. */
  function MaskTokensFrom(s: string, i: nat): string
    requires i <= |s|
    decreases |s| - i
  {
    if i == |s| then []
    else if IsSpace(s[i]) then [s[i]] + MaskTokensFrom(s, i + 1)
    else
      var e := RunEnd(s, i, IsNonSpace);
      MaskToken(s[i..e]) + MaskTokensFrom(s, e)
  }

  function MaskEmailTokens(s: string): string {
    MaskTokensFrom(s, 0)
  }

  /** The backtracking search for the `@` succeeds exactly when some `@`
    * among the first `k` non-space characters after `i` is followed by a
    * non-space, and the match then runs to the end of the token. */
  lemma {:induction false} EmailBacktrackFinds(s: string, i: nat, k: nat)
    requires i <= |s| && i + k <= RunEnd(s, i, IsNonSpace)
    ensures EmailBacktrack(s, i, k).Some? <==>
      exists j :: i < j <= i + k && j + 1 < |s| && s[j] == '@' && IsNonSpace(s[j + 1])
    ensures EmailBacktrack(s, i, k).Some? ==> EmailBacktrack(s, i, k).value == RunEnd(s, i, IsNonSpace)
    decreases k
  {
    if k > 0 {
      EmailBacktrackFinds(s, i, k - 1);
      if i + k + 1 < |s| && s[i + k] == '@' && IsNonSpace(s[i + k + 1]) {
        RunEndWithin(s, i, i + k + 1, IsNonSpace);
      }
    }
  }

  /** `\S+@\S+` matches at `i` exactly when the token from `i` on is
    * e-mail-like, and then it consumes the token to its end. */
  lemma EmailMatchAt(s: string, i: nat)
    requires i < |s|
    ensures var e := RunEnd(s, i, IsNonSpace);
      && (MatchAt(EmailPattern, s, i).Some? <==> IsEmailToken(s[i..e]))
      && (MatchAt(EmailPattern, s, i).Some? ==> MatchAt(EmailPattern, s, i).value == e)
  {
    var e := RunEnd(s, i, IsNonSpace);
    EmailBacktrackFinds(s, i, e - i);
    var t := s[i..e];
    if MatchAt(EmailPattern, s, i).Some? {
      var j :| i < j <= e && j + 1 < |s| && s[j] == '@' && IsNonSpace(s[j + 1]);
      assert t[j - i] == '@';
    }
    if IsEmailToken(t) {
      var j :| 0 < j < |t| - 1 && t[j] == '@';
      assert s[i + j] == '@' && IsNonSpace(s[i + j + 1]);
    }
  }

  /** At the start of a token the scan emits the masked token and resumes after it. */
  lemma ScanToken(s: string, i: nat)
    requires i < |s| && !IsSpace(s[i])
    ensures var e := RunEnd(s, i, IsNonSpace);
      Sub(EmailPattern, s, i) == MaskToken(s[i..e]) + Sub(EmailPattern, s, e)
  {
    var e := RunEnd(s, i, IsNonSpace);
    EmailMatchAt(s, i);
    if IsEmailToken(s[i..e]) {
      SubStep(EmailPattern, s, i);
    } else {
      forall j | i <= j < e
        ensures MatchAt(EmailPattern, s, j).None?
      {
        RunEndWithin(s, i, j, IsNonSpace);
        EmailMatchAt(s, j);
      }
      SubSkip(EmailPattern, s, i, e);
    }
  }

  /** The scan from any position agrees with the token-wise reference from there. */
  lemma {:induction false} EmailScanByToken(s: string, i: nat)
    requires i <= |s|
    ensures Sub(EmailPattern, s, i) == MaskTokensFrom(s, i)
    decreases |s| - i
  {
    if i < |s| {
      if IsSpace(s[i]) {
        EmailMatchAt(s, i);
        SubStep(EmailPattern, s, i);
        EmailScanByToken(s, i + 1);
      } else {
        ScanToken(s, i);
        EmailScanByToken(s, RunEnd(s, i, IsNonSpace));
      }
    }
  }

  /** Without an `@` the e-mail expression matches nowhere. */
  lemma EmailNeedsAtSign(s: string)
    ensures (forall k :: 0 <= k < |s| ==> s[k] != '@') ==> Sub(EmailPattern, s, 0) == s
  {
    if forall k :: 0 <= k < |s| ==> s[k] != '@' {
      forall j | 0 <= j < |s| ensures MatchAt(EmailPattern, s, j).None? {
        EmailMatchAt(s, j);
        var t := s[j..RunEnd(s, j, IsNonSpace)];
        assert forall m :: 0 <= m < |t| ==> t[m] == s[j + m];
      }
      SubIdentity(EmailPattern, s);
    }
  }

  /** Stage 2: every match of `\S+@\S+` becomes " EMAIL ". The result is the
    * token-wise reference, and text without an `@` is left as it is. */
  function MaskEmails(s: string): (r: string)
    ensures r == MaskEmailTokens(s)
    ensures (forall k :: 0 <= k < |s| ==> s[k] != '@') ==> r == s
    ensures forall k :: 0 <= k < |r| ==> r[k] in s || r[k] in " EMAIL "
  {
    SubCharacters(EmailPattern, s, 0);
    assert s[0..] == s;
    EmailScanByToken(s, 0);
    EmailNeedsAtSign(s);
    Sub(EmailPattern, s, 0)
  }

  lemma SliceOfPrefix(a: string, b: string, i: nat, e: nat)
    requires i <= e <= |a|
    ensures (a + b)[i..e] == a[i..e]
  {
  }

  lemma SliceOfSuffix(a: string, b: string, i: nat, e: nat)
    requires i <= e <= |b|
    ensures (a + b)[|a| + i..|a| + e] == b[i..e]
  {
  }

  /** Before a blank that ends `pre`, the e-mail expression matches in
    * `pre + x` as it does in `pre` alone: a match never crosses a blank. */
  lemma EmailMatchPrefix(pre: string, x: string, k: nat)
    requires k < |pre| && IsSpace(pre[|pre| - 1])
    ensures MatchAt(EmailPattern, pre + x, k) == MatchAt(EmailPattern, pre, k)
  {
    var s := pre + x;
    assert s[k] == pre[k];
    EmailMatchAt(s, k);
    EmailMatchAt(pre, k);
    assert !IsNonSpace(pre[|pre| - 1]);
    RunEndPrefix(pre, x, k, IsNonSpace);
    SliceOfPrefix(pre, x, k, RunEnd(pre, k, IsNonSpace));
  }

  /** The e-mail expression never looks to the left of where it is tried. */
  lemma EmailMatchShift(a: string, b: string, k: nat)
    requires k < |b|
    ensures MatchAt(EmailPattern, a + b, |a| + k) == ShiftMatch(MatchAt(EmailPattern, b, k), |a|)
  {
    var s := a + b;
    assert s[|a| + k] == b[k];
    EmailMatchAt(s, |a| + k);
    EmailMatchAt(b, k);
    RunEndShift(a, b, k, IsNonSpace);
    SliceOfSuffix(a, b, k, RunEnd(b, k, IsNonSpace));
  }

  /** Scanning `s == pre + x` passes through the blank that ends `pre`. */
  lemma EmailScanSplits(s: string, pre: string, x: string)
    requires s == pre + x
    requires pre == [] || IsSpace(pre[|pre| - 1])
    ensures MaskEmails(s) == MaskEmails(pre) + Sub(EmailPattern, s, |pre|)
  {
    forall k | 0 <= k < |pre|
      ensures MatchAt(EmailPattern, pre + x, k) == MatchAt(EmailPattern, pre, k)
    {
      EmailMatchPrefix(pre, x, k);
    }
    SubAppend(EmailPattern, pre, x);
  }

  /** Scanning `s == a + b` from where `b` starts is scanning `b`. */
  lemma EmailScanShifts(s: string, a: string, b: string)
    requires s == a + b
    ensures Sub(EmailPattern, s, |a|) == MaskEmails(b)
  {
    forall k | 0 <= k < |b|
      ensures MatchAt(EmailPattern, a + b, |a| + k) == ShiftMatch(MatchAt(EmailPattern, b, k), |a|)
    {
      EmailMatchShift(a, b, k);
    }
    SubShift(EmailPattern, a, b);
  }

  /** The scan, arriving at a whole token, emits its masked form and resumes after it. */
  lemma TokenScanned(pre: string, t: string, post: string)
    requires t != [] && forall k :: 0 <= k < |t| ==> !IsSpace(t[k])
    requires post == [] || IsSpace(post[0])
    ensures Sub(EmailPattern, pre + t + post, |pre|) ==
      MaskToken(t) + Sub(EmailPattern, pre + t + post, |pre| + |t|)
  {
    var s := pre + t + post;
    var i, e := |pre|, |pre| + |t|;
    assert forall k :: i <= k < e ==> s[k] == t[k - i];
    assert e < |s| ==> s[e] == post[0];
    RunEndAt(s, i, e, IsNonSpace);
    assert s[i..e] == t;
    ScanToken(s, i);
  }

  /**
   * A whitespace-delimited token is replaced whole by " EMAIL " when it holds
   * an `@` with a character on each side, and is kept otherwise; the text
   * around it is masked on its own.
   */
  lemma EmailTokenInContext(pre: string, t: string, post: string)
    requires pre == [] || IsSpace(pre[|pre| - 1])
    requires t != [] && forall k :: 0 <= k < |t| ==> !IsSpace(t[k])
    requires post == [] || IsSpace(post[0])
    ensures MaskEmails(pre + t + post) == MaskEmails(pre) + MaskToken(t) + MaskEmails(post)
  {
    var s := pre + t + post;
    var x := MaskToken(t);
    assert |pre + t| == |pre| + |t|;
    calc {
      MaskEmails(s);
      == { ConcatAssoc(pre, t, post); EmailScanSplits(s, pre, t + post); }
      MaskEmails(pre) + Sub(EmailPattern, s, |pre|);
      == { TokenScanned(pre, t, post); }
      MaskEmails(pre) + (x + Sub(EmailPattern, s, |pre| + |t|));
      == { EmailScanShifts(s, pre + t, post); }
      MaskEmails(pre) + (x + MaskEmails(post));
      == { ConcatAssoc(MaskEmails(pre), x, MaskEmails(post)); }
      MaskEmails(pre) + x + MaskEmails(post);
    }
  }

  /** A token alone in the text. */
  lemma LoneToken(t: string)
    requires t != [] && forall k :: 0 <= k < |t| ==> !IsSpace(t[k])
    ensures MaskEmails(t) == MaskToken(t)
  {
    EmailTokenInContext([], t, []);
    assert [] + t + [] == t;
    SubIdentity(EmailPattern, []);
    assert MaskEmails([]) == [];
  }

  /** `@x` and `x@` have nothing on one side of the `@`, so they stay. */
  lemma EdgeAtSignsStay(s: string)
    requires s == "@x" || s == "x@"
    ensures MaskEmails(s) == s
  {
    LoneToken(s);
  }

  /** `a@b` is the shortest e-mail-like token. */
  lemma ShortestAddressMasked(s: string)
    requires s == "a@b"
    ensures MaskEmails(s) == " EMAIL "
  {
    assert IsEmailToken(s) by { assert s[1] == '@'; }
    LoneToken(s);
  }
}

=== FILE: engine.dfy ===
/**
 * The state of `PDFQueryEngine` and its three operations. The engine holds an
 * optional cleaned job description and an optional vector index; the index
 * is abstract here: the chunks it was built from. PDF page extraction, the
 * text splitter, the vector store and the language model are parameters.
 */
module Engine {
  import opened Wrappers
  import opened CharClasses
  import opened Normaliser

  /** `RecursiveCharacterTextSplitter(chunk_size=1500, chunk_overlap=150)`. */
  const ChunkSize: nat := 1500
  const ChunkOverlap: nat := 150

  /** A piece of cleaned page text, tagged with the page it came from. */
  datatype Chunk = Chunk(page: nat, text: string)

  /** The vector store, known by the chunks it was built from. */
  datatype Index = Index(chunks: seq<Chunk>)

  datatype Engine = Engine(jobDescription: Option<string>, index: Option<Index>)

  datatype Error =
    | PdfNotLoaded
    | JobDescriptionNotSet
    | PdfUnreadable(reason: string)
    | IndexBuildFailed(reason: string)

  /** The text of the `ValueError`s `ask_question` raises, and the reason
    * carried by a failure of the PDF loader or of the vector store. */
  function Message(e: Error): (r: string)
    ensures e.PdfNotLoaded? ==> r == "Please load a PDF first"
    ensures e.JobDescriptionNotSet? ==> r == "Please set a job description first using set_job_description()"
    ensures (e.PdfUnreadable? || e.IndexBuildFailed?) ==> r == e.reason
  {
    match e
    case PdfNotLoaded => "Please load a PDF first"
    case JobDescriptionNotSet => "Please set a job description first using set_job_description()"
    case PdfUnreadable(reason) => reason
    case IndexBuildFailed(reason) => reason
  }

  /** A new engine: no job description and no vector store. */
  function NewEngine(): (r: Engine)
    ensures r.jobDescription.None? && r.index.None?
  {
    Engine(None, None)
  }

  /** `set_job_description`: store the cleaned description; the index stays. */
  function SetJobDescription(e: Engine, description: string): (r: Engine)
    ensures r.index == e.index
    ensures r.jobDescription.Some? && Normalised(r.jobDescription.value)
    ensures r.jobDescription.value == PreprocessText(description)
  {
    e.(jobDescription := Some(PreprocessText(description)))
  }

  /** What becomes of one page's text: it is cleaned, then cut by the
    * splitter into pieces of at most `ChunkSize` with `ChunkOverlap` overlap. */
  function CleanAndSplit(split: (string, nat, nat) -> seq<string>): string -> seq<string> {
    text => split(PreprocessText(text), ChunkSize, ChunkOverlap)
  }

  /** The chunks of one page, tagged with the page's number. */
  function PageChunks(page: nat, text: string, pieces: string -> seq<string>): seq<Chunk> {
    var cut := pieces(text);
    seq(|cut|, k requires 0 <= k < |cut| => Chunk(page, cut[k]))
  }

  /** `split_documents`: the chunks of every page, page by page, in page order. */
  function SplitPages(pages: seq<string>, pieces: string -> seq<string>): seq<Chunk>
    decreases |pages|
  {
    if pages == [] then []
    else SplitPages(pages[..|pages| - 1], pieces) + PageChunks(|pages| - 1, pages[|pages| - 1], pieces)
  }

  lemma PageChunksMembers(page: nat, text: string, pieces: string -> seq<string>, c: Chunk)
    ensures c in PageChunks(page, text, pieces) <==> c.page == page && c.text in pieces(text)
  {
    var cut := pieces(text);
    if c.page == page && c.text in cut {
      var k :| 0 <= k < |cut| && cut[k] == c.text;
      assert PageChunks(page, text, pieces)[k] == c;
    }
  }

  /**
   * A chunk belongs to the split of the pages exactly when it names one of
   * the pages and its text is one of the pieces cut from that page.
   */
  lemma {:induction false} SplitPagesMembers(pages: seq<string>, pieces: string -> seq<string>, c: Chunk)
    ensures c in SplitPages(pages, pieces) <==> c.page < |pages| && c.text in pieces(pages[c.page])
    decreases |pages|
  {
    if pages != [] {
      var last := |pages| - 1;
      var init := pages[..last];
      SplitPagesMembers(init, pieces, c);
      PageChunksMembers(last, pages[last], pieces, c);
      if c.page < last {
        assert init[c.page] == pages[c.page];
      }
    }
  }

  /** What `load_pdf` leaves behind, and the number of chunks it loaded. */
  datatype Loaded = Loaded(engine: Engine, status: Result<nat, Error>)

  /**
   * `load_pdf`: drop the old vector store, read the pages (`extracted`: the
   * page texts, or the loader's error), clean each page, split the pages
   * into chunks, and build a new store from them (`storeError`: the store's
   * error, if building it fails). The job description is untouched.
   */
  function LoadPdf(e: Engine, extracted: Result<seq<string>, string>,
                   split: (string, nat, nat) -> seq<string>, storeError: Option<string>): (r: Loaded)
    ensures r.engine.jobDescription == e.jobDescription
    ensures r.status.Success? <==> extracted.Success? && storeError.None?
    ensures r.engine.index.Some? <==> r.status.Success?
    ensures extracted.Failure? ==> r.status == Failure(PdfUnreadable(extracted.error))
    ensures extracted.Success? && storeError.Some? ==> r.status == Failure(IndexBuildFailed(storeError.value))
    ensures r.engine.index.Some? ==>
      && r.status.value == |r.engine.index.value.chunks|
      && forall c :: c in r.engine.index.value.chunks <==>
           c.page < |extracted.value| && c.text in split(PreprocessText(extracted.value[c.page]), ChunkSize, ChunkOverlap)
  {
    var cleared := e.(index := None);
    match extracted
    case Failure(reason) => Loaded(cleared, Failure(PdfUnreadable(reason)))
    case Success(pages) =>
      var chunks := SplitPages(pages, CleanAndSplit(split));
      assert forall c :: c in chunks <==>
        c.page < |pages| && c.text in split(PreprocessText(pages[c.page]), ChunkSize, ChunkOverlap) by {
        forall c ensures c in chunks <==>
          c.page < |pages| && c.text in split(PreprocessText(pages[c.page]), ChunkSize, ChunkOverlap) {
          SplitPagesMembers(pages, CleanAndSplit(split), c);
        }
      }
      match storeError
      case Some(reason) => Loaded(cleared, Failure(IndexBuildFailed(reason)))
      case None => Loaded(cleared.(index := Some(Index(chunks))), Success(|chunks|))
  }

  /** Nothing of the old index survives a load: engines that differ only in
    * their index end up in the same state. */
  lemma LoadForgetsOldIndex(e1: Engine, e2: Engine, extracted: Result<seq<string>, string>,
                            split: (string, nat, nat) -> seq<string>, storeError: Option<string>)
    requires e1.jobDescription == e2.jobDescription
    ensures LoadPdf(e1, extracted, split, storeError) == LoadPdf(e2, extracted, split, storeError)
  {
  }

  const PromptHead: string := "You are an expert HR professional analyzing resumes.\n\n            Job Description:\n            "
  const PromptMiddle: string := "\n\n            Question: "
  const PromptTail: string := "\n\n            "

  /** `resume_prompt.format(query=..., job_description=...)`. */
  function FormatPrompt(jobDescription: string, query: string): (r: string)
    ensures |r| == |PromptHead| + |jobDescription| + |PromptMiddle| + |query| + |PromptTail|
    ensures r[..|PromptHead|] == PromptHead
    ensures r[|PromptHead|..|PromptHead| + |jobDescription|] == jobDescription
    ensures r[|PromptHead| + |jobDescription|..|PromptHead| + |jobDescription| + |PromptMiddle|] == PromptMiddle
    ensures r[|PromptHead| + |jobDescription| + |PromptMiddle|..|r| - |PromptTail|] == query
    ensures r[|r| - |PromptTail|..] == PromptTail
  {
    var r := PromptHead + jobDescription + PromptMiddle + query + PromptTail;
    assert r[..|PromptHead|] == PromptHead;
    assert r[|PromptHead|..|PromptHead| + |jobDescription|] == jobDescription;
    assert r[|PromptHead| + |jobDescription|..|PromptHead| + |jobDescription| + |PromptMiddle|] == PromptMiddle;
    assert r[|PromptHead| + |jobDescription| + |PromptMiddle|..|r| - |PromptTail|] == query;
    assert r[|r| - |PromptTail|..] == PromptTail;
    r
  }

  /**
   * `ask_question`: fail with `PdfNotLoaded` when there is no index; then
   * with `JobDescriptionNotSet` when the description is missing or empty;
   * otherwise pass the formatted prompt and the index to `answer`, which
   * stands for retrieval plus the language model.
   */
  function AskQuestion(e: Engine, query: string, answer: (string, Index) -> string): (r: Result<string, Error>)
    ensures r == Failure(PdfNotLoaded) <==> e.index.None?
    ensures r == Failure(JobDescriptionNotSet) <==>
      e.index.Some? && (e.jobDescription.None? || e.jobDescription.value == [])
    ensures r.Success? <==> e.index.Some? && e.jobDescription.Some? && e.jobDescription.value != []
    ensures r.Success? ==> r.value == answer(FormatPrompt(e.jobDescription.value, query), e.index.value)
  {
    if e.index.None? then Failure(PdfNotLoaded)
    else if e.jobDescription.None? || e.jobDescription.value == [] then Failure(JobDescriptionNotSet)
    else Success(answer(FormatPrompt(e.jobDescription.value, query), e.index.value))
  }

  /** Asking a new engine fails on the missing PDF, not on the missing
    * description. */
  lemma FreshEngineNeedsPdf(query: string, answer: (string, Index) -> string)
    ensures AskQuestion(NewEngine(), query, answer) == Failure(PdfNotLoaded)
    ensures Message(AskQuestion(NewEngine(), query, answer).error) == "Please load a PDF first"
  {
  }

  /** A load that fails leaves no index behind, even if one existed before,
    * so the next question fails on the missing PDF. */
  lemma FailedLoadLosesIndex(e: Engine, extracted: Result<seq<string>, string>,
                             split: (string, nat, nat) -> seq<string>, storeError: Option<string>,
                             query: string, answer: (string, Index) -> string)
    requires extracted.Failure? || storeError.Some?
    ensures AskQuestion(LoadPdf(e, extracted, split, storeError).engine, query, answer) == Failure(PdfNotLoaded)
  {
  }

  /**
   * A description made only of non-word characters other than `@` is stored
   * as the empty string, so after a successful load the question still fails,
   * on the description.
   */
  lemma PunctuationOnlyDescriptionIsNotSet(e: Engine, description: string,
                                            pages: seq<string>, split: (string, nat, nat) -> seq<string>,
                                            query: string, answer: (string, Index) -> string)
    requires forall k :: 0 <= k < |description| ==> !IsWordChar(description[k]) && description[k] != '@'
    ensures var loaded := LoadPdf(SetJobDescription(e, description), Success(pages), split, None);
      AskQuestion(loaded.engine, query, answer) == Failure(JobDescriptionNotSet)
  {
    SymbolsOnlyVanish(description);
  }

  lemma ExclamationsAreSymbols(description: string)
    requires description == "!!! ..."
    ensures forall k :: 0 <= k < |description| ==> !IsWordChar(description[k]) && description[k] != '@'
  {
  }

  /** The same for the description `"!!! ..."`, with the message the user sees. */
  lemma ExclamationsAreNotADescription(e: Engine, description: string,
                                       pages: seq<string>, split: (string, nat, nat) -> seq<string>,
                                       query: string, answer: (string, Index) -> string)
    requires description == "!!! ..."
    ensures var loaded := LoadPdf(SetJobDescription(e, description), Success(pages), split, None);
      && AskQuestion(loaded.engine, query, answer) == Failure(JobDescriptionNotSet)
      && Message(JobDescriptionNotSet) == "Please set a job description first using set_job_description()"
  {
    ExclamationsAreSymbols(description);
    PunctuationOnlyDescriptionIsNotSet(e, description, pages, split, query, answer);
  }
}

=== FILE: idempotence.dfy ===
/**
 * `preprocess_text` is not idempotent: the EMAIL, PHONE and URL tokens are
 * written in upper case after lower-casing has run, so a second pass turns
 * them into lower-case words. These lemmas give a sufficient condition
 * for a text to be a fixed point.
 */
module Idempotence {
  import opened CharClasses
  import opened Regex
  import opened Normaliser
  import opened EmailMask
  import opened PhoneMask
  import opened UrlMask

  /** The stages after URL masking leave a normalised string alone. */
  lemma CleanupKeeps(r: string)
    requires Normalised(r)
    ensures Strip(CollapseNewlines(CollapseWhitespace(PunctuationToSpace(r)))) == r
  {
    CleanupFixesNormalised(r);
  }

  /**
   * A normalised text without upper-case letters, digits, `h` or `w` is a
   * fixed point: none of the seven stages changes it.
   */
  lemma PreprocessFixesPlainText(r: string)
    requires Normalised(r)
    requires forall k :: 0 <= k < |r| ==> !IsUpper(r[k]) && !IsDigit(r[k]) && r[k] != 'h' && r[k] != 'w'
    ensures PreprocessText(r) == r
  {
    assert Lower(r) == r;
    NormalisedHasNoPunctuation(r);
    CleanupKeeps(r);
  }

  lemma StripPaddedWord(w: string)
    requires |w| > 0 && forall k :: 0 <= k < |w| ==> !IsSpace(w[k])
    ensures Strip(" " + w + " ") == w
  {
    var s := " " + w + " ";
    assert RunEnd(s, 1, IsSpace) == 1;
    assert StripStart(s) == 1;
    var r := Strip(s);
    assert s[1 + |w| - 1] == w[|w| - 1];
    assert |r| == |w|;
    assert forall k :: 0 <= k < |w| ==> r[k] == s[1 + k] == w[k];
  }

  /** The stages after e-mail masking, as one function of their input. */
  function AfterEmails(masked: string): string {
    Strip(CollapseNewlines(CollapseWhitespace(PunctuationToSpace(MaskUrls(MaskPhones(masked))))))
  }

  lemma PreprocessInStages(text: string)
    ensures PreprocessText(text) == AfterEmails(MaskEmails(Lower(text)))
  {
  }

  lemma AddressMasked(text: string)
    requires text == "a@b.com"
    ensures MaskEmails(Lower(text)) == " EMAIL "
  {
    assert Lower(text) == text;
    assert IsEmailToken(text) by { assert text[1] == '@'; }
    EmailTokenInContext("", text, "");
    assert "" + text + "" == text;
    SubIdentity(EmailPattern, "");
  }

  /** The masks of stages 3 and 4 leave a padded word without digits, `h`
    * or `w` alone. */
  lemma PaddedWordUnmasked(masked: string, w: string)
    requires forall k :: 0 <= k < |w| ==> IsWordChar(w[k]) && !IsDigit(w[k]) && w[k] != 'h' && w[k] != 'w'
    requires masked == " " + w + " "
    ensures MaskUrls(MaskPhones(masked)) == masked
  {
    assert forall k :: 0 < k < |masked| - 1 ==> masked[k] == w[k - 1];
    assert forall k :: 0 <= k < |masked| ==> !IsDigit(masked[k]) && masked[k] != 'h' && masked[k] != 'w';
  }

  /** Stages 5 to 7 reduce a padded word to the bare word. */
  lemma PaddedWordCleaned(masked: string, w: string)
    requires |w| > 0
    requires forall k :: 0 <= k < |w| ==> IsWordChar(w[k])
    requires masked == " " + w + " "
    ensures Strip(CollapseNewlines(CollapseWhitespace(PunctuationToSpace(masked)))) == w
  {
    assert forall k :: 0 < k < |masked| - 1 ==> masked[k] == w[k - 1];
    assert PunctuationToSpace(masked) == masked;
    CollapseKeepsNormalised(masked, 0);
    assert masked[0..] == masked;
    assert CollapseWhitespace(masked) == masked;
    NewlineFreeUnchanged(masked);
    StripPaddedWord(w);
  }

  /** A single word padded with one space on each side, as the e-mail
    * stage leaves a lone token, comes out as the bare word. */
  lemma PaddedWordSurvives(masked: string, w: string)
    requires |w| > 0
    requires forall k :: 0 <= k < |w| ==> IsWordChar(w[k]) && !IsDigit(w[k]) && w[k] != 'h' && w[k] != 'w'
    requires masked == " " + w + " "
    ensures AfterEmails(masked) == w
  {
    PaddedWordUnmasked(masked, w);
    PaddedWordCleaned(masked, w);
  }

  lemma PaddedToken(masked: string)
    requires masked == " EMAIL "
    ensures |masked| > 2 && masked[1..|masked| - 1] == "EMAIL"
    ensures masked == " " + masked[1..|masked| - 1] + " "
    ensures forall k :: 1 <= k < |masked| - 1 ==>
      IsWordChar(masked[k]) && !IsDigit(masked[k]) && masked[k] != 'h' && masked[k] != 'w'
  {
  }

  /** A lone e-mail address comes out as the bare token `EMAIL`. */
  lemma AddressBecomesToken(text: string)
    requires text == "a@b.com"
    ensures PreprocessText(text) == "EMAIL"
  {
    PreprocessInStages(text);
    AddressMasked(text);
    var masked := MaskEmails(Lower(text));
    PaddedToken(masked);
    PaddedWordSurvives(masked, masked[1..|masked| - 1]);
  }

  /** Lower-casing the input first makes no difference. */
  lemma PreprocessOfLowered(text: string)
    ensures PreprocessText(text) == PreprocessText(Lower(text))
  {
    LowerIdempotent(text);
  }

  lemma LowerOfToken(token: string)
    requires token == "EMAIL"
    ensures Lower(token) == "email"
  {
  }

  lemma PlainWord(r: string)
    requires r == "email"
    ensures Normalised(r)
    ensures forall k :: 0 <= k < |r| ==> !IsUpper(r[k]) && !IsDigit(r[k]) && r[k] != 'h' && r[k] != 'w'
  {
  }

  /** The token written by the first pass is lower-cased by the second. */
  lemma TokenIsLowerCasedAgain(token: string)
    requires token == "EMAIL"
    ensures PreprocessText(token) == "email"
  {
    PreprocessOfLowered(token);
    LowerOfToken(token);
    PlainWord(Lower(token));
    PreprocessFixesPlainText(Lower(token));
  }

  /** Running the normaliser twice differs from running it once. */
  lemma NotIdempotent(text: string)
    requires text == "a@b.com"
    ensures PreprocessText(PreprocessText(text)) != PreprocessText(text)
  {
    AddressBecomesToken(text);
    TokenIsLowerCasedAgain(PreprocessText(text));
  }
}

=== FILE: normaliser.dfy ===
/**
 * `PDFQueryEngine.preprocess_text`: seven stages applied in a fixed order to
 * the job description and to the text of every PDF page.
 */
module Normaliser {
  import opened CharClasses
  import opened Regex
  import opened EmailMask
  import opened PhoneMask
  import opened UrlMask

  /** Stage 5: every character that is neither `\w` nor `\s` becomes a space. */
  function PunctuationToSpace(s: string): (r: string)
    ensures |r| == |s|
    ensures forall k :: 0 <= k < |s| && (IsWordChar(s[k]) || IsSpace(s[k])) ==> r[k] == s[k]
    ensures forall k :: 0 <= k < |s| && !IsWordChar(s[k]) && !IsSpace(s[k]) ==> r[k] == ' '
  {
    PunctuationPerCharacter(s, 0);
    Sub(PunctuationPattern, s, 0)
  }

  /** The punctuation scan works character by character. */
  lemma {:induction false} PunctuationPerCharacter(s: string, i: nat)
    requires i <= |s|
    ensures |Sub(PunctuationPattern, s, i)| == |s| - i
    ensures forall k :: i <= k < |s| && (IsWordChar(s[k]) || IsSpace(s[k])) ==> Sub(PunctuationPattern, s, i)[k - i] == s[k]
    ensures forall k :: i <= k < |s| && !IsWordChar(s[k]) && !IsSpace(s[k]) ==> Sub(PunctuationPattern, s, i)[k - i] == ' '
    decreases |s| - i
  {
    if i < |s| {
      SubStep(PunctuationPattern, s, i);
      PunctuationPerCharacter(s, i + 1);
    }
  }

  /** The characters of `s` other than whitespace, in order. */
  function RemoveSpaces(s: string): string {
    if s == [] then []
    else (if IsSpace(s[0]) then [] else [s[0]]) + RemoveSpaces(s[1..])
  }

  lemma {:induction false} RemoveSpacesAppend(a: string, b: string)
    ensures RemoveSpaces(a + b) == RemoveSpaces(a) + RemoveSpaces(b)
  {
    if a != [] {
      assert (a + b)[1..] == a[1..] + b;
      RemoveSpacesAppend(a[1..], b);
    } else {
      assert a + b == b;
    }
  }

  lemma {:induction false} RemoveSpacesOfSpaces(a: string)
    requires forall k :: 0 <= k < |a| ==> IsSpace(a[k])
    ensures RemoveSpaces(a) == []
  {
    if a != [] {
      RemoveSpacesOfSpaces(a[1..]);
    }
  }

  /** No two adjacent characters are both whitespace. */
  predicate NoAdjacentSpaces(s: string) {
    forall k :: 0 <= k < |s| - 1 ==> !(IsSpace(s[k]) && IsSpace(s[k + 1]))
  }

  /** Stage 6: every run of `\s` becomes one space. */
  function CollapseWhitespace(s: string): (r: string)
    ensures forall k :: 0 <= k < |r| ==> r[k] == ' ' || !IsSpace(r[k])
    ensures NoAdjacentSpaces(r)
    ensures RemoveSpaces(r) == RemoveSpaces(s)
    ensures |r| > 0 <==> |s| > 0
    ensures |s| > 0 ==> (IsSpace(r[0]) <==> IsSpace(s[0]))
    ensures |s| > 0 ==> (IsSpace(r[|r| - 1]) <==> IsSpace(s[|s| - 1]))
  {
    CollapseFrom(s, 0);
    CollapseKeepsNonSpace(s, 0);
    Sub(SpaceRunPattern, s, 0)
  }

  lemma {:induction false} CollapseFrom(s: string, i: nat)
    requires i <= |s|
    ensures var r := Sub(SpaceRunPattern, s, i);
      && (forall k :: 0 <= k < |r| ==> r[k] == ' ' || !IsSpace(r[k]))
      && NoAdjacentSpaces(r)
      && (|r| > 0 <==> i < |s|)
      && (i < |s| ==> (IsSpace(r[0]) <==> IsSpace(s[i])))
      && (i < |s| ==> (IsSpace(r[|r| - 1]) <==> IsSpace(s[|s| - 1])))
    decreases |s| - i
  {
    if i < |s| {
      SubStep(SpaceRunPattern, s, i);
      match MatchAt(SpaceRunPattern, s, i)
      case Some(e) =>
        CollapseFrom(s, e);
      case None =>
        CollapseFrom(s, i + 1);
    }
  }

  lemma {:induction false} CollapseKeepsNonSpace(s: string, i: nat)
    requires i <= |s|
    ensures RemoveSpaces(Sub(SpaceRunPattern, s, i)) == RemoveSpaces(s[i..])
    decreases |s| - i
  {
    if i < |s| {
      SubStep(SpaceRunPattern, s, i);
      match MatchAt(SpaceRunPattern, s, i)
      case Some(e) =>
        CollapseKeepsNonSpace(s, e);
        var t := Sub(SpaceRunPattern, s, e);
        assert s[i..] == s[i..e] + s[e..];
        RemoveSpacesAppend(s[i..e], s[e..]);
        RemoveSpacesOfSpaces(s[i..e]);
        RemoveSpacesAppend(" ", t);
        assert RemoveSpaces(" ") == [];
      case None =>
        CollapseKeepsNonSpace(s, i + 1);
        var t := Sub(SpaceRunPattern, s, i + 1);
        assert s[i..] == [s[i]] + s[i + 1..];
        RemoveSpacesAppend([s[i]], s[i + 1..]);
        RemoveSpacesAppend([s[i]], t);
    }
  }

  /** Text without whitespace passes through stage 6 unchanged. */
  lemma SpacelessUnchanged(s: string)
    requires forall k :: 0 <= k < |s| ==> !IsSpace(s[k])
    ensures CollapseWhitespace(s) == s
  {
    SubIdentity(SpaceRunPattern, s);
  }

  /** `\s+` and `\n+`: the patterns that match a run of one character class. */
  predicate IsRunPattern(p: Pattern) {
    p.SpaceRunPattern? || p.NewlineRunPattern?
  }

  function RunClass(p: Pattern): char -> bool
    requires IsRunPattern(p)
  {
    if p.SpaceRunPattern? then IsSpace else IsNewline
  }

  /** Scanning up to a maximal run gives the scan of the text before it. */
  lemma RunAfterPrefix(p: Pattern, a: string, w: string, b: string)
    requires IsRunPattern(p)
    requires a == [] || !RunClass(p)(a[|a| - 1])
    ensures Sub(p, a + w + b, 0) == Sub(p, a, 0) + Sub(p, a + w + b, |a|)
  {
    var x := w + b;
    ConcatAssoc(a, w, b);
    forall k | 0 <= k < |a|
      ensures MatchAt(p, a + x, k) == MatchAt(p, a, k)
    {
      assert (a + x)[k] == a[k];
      if RunClass(p)(a[k]) {
        RunEndPrefix(a, x, k, RunClass(p));
      }
    }
    SubAppend(p, a, x);
  }

  /** A maximal run becomes the pattern's replacement and the scan goes on with `b`. */
  lemma RunThenRest(p: Pattern, a: string, w: string, b: string)
    requires IsRunPattern(p)
    requires w != [] && forall k :: 0 <= k < |w| ==> RunClass(p)(w[k])
    requires b == [] || !RunClass(p)(b[0])
    ensures Sub(p, a + w + b, |a|) == Replacement(p) + Sub(p, b, 0)
  {
    var s := a + w + b;
    var aw := a + w;
    assert s == aw + b;
    RunEndAt(s, |a|, |aw|, RunClass(p));
    SubStep(p, s, |a|);
    forall k | 0 <= k < |b|
      ensures MatchAt(p, aw + b, |aw| + k) == ShiftMatch(MatchAt(p, b, k), |aw|)
    {
      assert (aw + b)[|aw| + k] == b[k];
      RunEndShift(aw, b, k, RunClass(p));
    }
    SubShift(p, aw, b);
  }

  /** A maximal run becomes one copy of the replacement, and the text on
    * either side is scanned on its own. */
  lemma RunSplits(p: Pattern, a: string, w: string, b: string)
    requires IsRunPattern(p)
    requires a == [] || !RunClass(p)(a[|a| - 1])
    requires w != [] && forall k :: 0 <= k < |w| ==> RunClass(p)(w[k])
    requires b == [] || !RunClass(p)(b[0])
    ensures Sub(p, a + w + b, 0) == Sub(p, a, 0) + Replacement(p) + Sub(p, b, 0)
  {
    RunAfterPrefix(p, a, w, b);
    RunThenRest(p, a, w, b);
    ConcatAssoc(Sub(p, a, 0), Replacement(p), Sub(p, b, 0));
  }

  /** A maximal whitespace run `w` becomes one space, and the text on either
    * side collapses on its own. Applied at each run in turn, with
    * `SpacelessUnchanged` for the pieces, this fixes the result of stage 6. */
  lemma CollapseSplitsAtRun(a: string, w: string, b: string)
    requires a == [] || !IsSpace(a[|a| - 1])
    requires w != [] && forall k :: 0 <= k < |w| ==> IsSpace(w[k])
    requires b == [] || !IsSpace(b[0])
    ensures CollapseWhitespace(a + w + b) == CollapseWhitespace(a) + " " + CollapseWhitespace(b)
  {
    RunSplits(SpaceRunPattern, a, w, b);
  }

  /** Where the run class does not continue across the seam (the left part
    * ends outside it, or the right part starts outside it), no match spans
    * the seam and the two parts are scanned on their own. */
  lemma RunPatternSplits(p: Pattern, a: string, x: string)
    requires IsRunPattern(p)
    requires (a == [] || !RunClass(p)(a[|a| - 1])) || (x == [] || !RunClass(p)(x[0]))
    ensures Sub(p, a + x, 0) == Sub(p, a, 0) + Sub(p, x, 0)
  {
    forall k | 0 <= k < |a|
      ensures MatchAt(p, a + x, k) == MatchAt(p, a, k)
    {
      assert (a + x)[k] == a[k];
      if RunClass(p)(a[k]) {
        if RunEnd(a, k, RunClass(p)) < |a| {
          RunEndPrefix(a, x, k, RunClass(p));
        } else {
          assert RunClass(p)(a[|a| - 1]);
          assert forall j :: k <= j < |a| ==> (a + x)[j] == a[j];
          RunEndAt(a + x, k, |a|, RunClass(p));
        }
      }
    }
    SubAppend(p, a, x);
    forall k | 0 <= k < |x|
      ensures MatchAt(p, a + x, |a| + k) == ShiftMatch(MatchAt(p, x, k), |a|)
    {
      assert (a + x)[|a| + k] == x[k];
      RunEndShift(a, x, k, RunClass(p));
    }
    SubShift(p, a, x);
  }

  /** Stage 6 on two pieces with no whitespace run across the seam is stage 6
    * on each piece. */
  lemma CollapseSplitsBeside(a: string, x: string)
    requires (a == [] || !IsSpace(a[|a| - 1])) || (x == [] || !IsSpace(x[0]))
    ensures CollapseWhitespace(a + x) == CollapseWhitespace(a) + CollapseWhitespace(x)
  {
    RunPatternSplits(SpaceRunPattern, a, x);
  }

  /** Stage 7a: every run of newlines becomes one newline. */
  function CollapseNewlines(s: string): (r: string)
    ensures forall k :: 0 <= k < |r| - 1 ==> !(IsNewline(r[k]) && IsNewline(r[k + 1]))
    ensures (forall k :: 0 <= k < |s| ==> !IsNewline(s[k])) ==> r == s
  {
    CollapseNewlinesFrom(s, 0);
    NewlineFreeUnchanged(s);
    Sub(NewlineRunPattern, s, 0)
  }

  lemma NewlineFreeUnchanged(s: string)
    ensures (forall k :: 0 <= k < |s| ==> !IsNewline(s[k])) ==> Sub(NewlineRunPattern, s, 0) == s
  {
    if forall k :: 0 <= k < |s| ==> !IsNewline(s[k]) {
      SubIdentity(NewlineRunPattern, s);
    }
  }

  lemma {:induction false} CollapseNewlinesFrom(s: string, i: nat)
    requires i <= |s|
    ensures var r := Sub(NewlineRunPattern, s, i);
      && (forall k :: 0 <= k < |r| - 1 ==> !(IsNewline(r[k]) && IsNewline(r[k + 1])))
      && (|r| > 0 ==> (IsNewline(r[0]) <==> IsNewline(s[i])))
    decreases |s| - i
  {
    if i < |s| {
      SubStep(NewlineRunPattern, s, i);
      match MatchAt(NewlineRunPattern, s, i)
      case Some(e) =>
        CollapseNewlinesFrom(s, e);
      case None =>
        CollapseNewlinesFrom(s, i + 1);
    }
  }

  /** A maximal newline run `w` becomes one newline, and the text on either
    * side is handled on its own; newline-free text is kept, as
    * `CollapseNewlines` states. */
  lemma NewlinesSplitAtRun(a: string, w: string, b: string)
    requires a == [] || !IsNewline(a[|a| - 1])
    requires w != [] && forall k :: 0 <= k < |w| ==> IsNewline(w[k])
    requires b == [] || !IsNewline(b[0])
    ensures CollapseNewlines(a + w + b) == CollapseNewlines(a) + "\n" + CollapseNewlines(b)
  {
    RunSplits(NewlineRunPattern, a, w, b);
  }

  /** The first index of `s[..j]` after which only whitespace remains, but not before `a`. */
  function TrailingSpaceStart(s: string, a: nat, j: nat): (b: nat)
    requires a <= j <= |s|
    ensures a <= b <= j
    ensures forall k :: b <= k < j ==> IsSpace(s[k])
    ensures b == a || !IsSpace(s[b - 1])
    decreases j
  {
    if j > a && IsSpace(s[j - 1]) then TrailingSpaceStart(s, a, j - 1) else j
  }

  /** Where `str.strip()` starts keeping characters: after the leading whitespace. */
  function StripStart(s: string): (a: nat)
    ensures a <= |s|
  {
    RunEnd(s, 0, IsSpace)
  }

  /** Stage 7b, `str.strip()`: the longest slice of `s` that neither starts nor
    * ends with whitespace and leaves only whitespace outside it. */
  function Strip(s: string): (r: string)
    ensures |r| > 0 ==> !IsSpace(r[0]) && !IsSpace(r[|r| - 1])
    ensures StripStart(s) + |r| <= |s| && r == s[StripStart(s)..StripStart(s) + |r|]
    ensures forall k :: 0 <= k < StripStart(s) ==> IsSpace(s[k])
    ensures forall k :: StripStart(s) + |r| <= k < |s| ==> IsSpace(s[k])
  {
    var a := StripStart(s);
    var b := TrailingSpaceStart(s, a, |s|);
    s[a..b]
  }

  /* The shape of everything `preprocess_text` returns: word characters
   * separated by single spaces, with no space at either end. */

  predicate WordOrSpace(c: char) {
    IsWordChar(c) || IsSpace(c)
  }

  predicate WordOrBlank(c: char) {
    IsWordChar(c) || c == ' '
  }

  /** Word characters and single spaces only, trimmed at both ends. */
  predicate Normalised(r: string) {
    && (forall k :: 0 <= k < |r| ==> WordOrBlank(r[k]))
    && (forall k :: 0 <= k < |r| - 1 ==> !(r[k] == ' ' && r[k + 1] == ' '))
    && (|r| > 0 ==> r[0] != ' ' && r[|r| - 1] != ' ')
  }

  /** After stage 6 no whitespace but the plain space is left, so the `\n+`
    * substitution of stage 7 never changes anything. */
  lemma NewlineStageIsNoOp(s: string)
    ensures forall k :: 0 <= k < |CollapseWhitespace(s)| ==> !IsNewline(CollapseWhitespace(s)[k])
    ensures CollapseNewlines(CollapseWhitespace(s)) == CollapseWhitespace(s)
  {
  }

  /** Stages 5 and 6 together leave only word characters and single spaces. */
  lemma CleanupStagesShape(s: string)
    ensures var c := CollapseWhitespace(PunctuationToSpace(s));
      (forall k :: 0 <= k < |c| ==> WordOrBlank(c[k])) && NoAdjacentSpaces(c)
  {
    var p := PunctuationToSpace(s);
    assert forall k :: 0 <= k < |p| ==> WordOrSpace(p[k]);
    assert forall j :: 0 <= j < |p| && MatchAt(SpaceRunPattern, p, j).None? ==> WordOrBlank(p[j]);
    SubKeepsClass(SpaceRunPattern, p, 0, WordOrBlank);
  }

  /** Stripping a single-spaced string of word characters normalises it. */
  lemma StripNormalises(c: string)
    requires forall k :: 0 <= k < |c| ==> WordOrBlank(c[k])
    requires NoAdjacentSpaces(c)
    ensures Normalised(Strip(c))
  {
    var r := Strip(c);
    var a := StripStart(c);
    forall k | 0 <= k < |r|
      ensures WordOrBlank(r[k])
    {
      assert r[k] == c[a + k];
    }
    forall k | 0 <= k < |r| - 1
      ensures !(r[k] == ' ' && r[k + 1] == ' ')
    {
      assert r[k] == c[a + k] && r[k + 1] == c[a + k + 1];
    }
  }

  /** A normalised string holds no punctuation, e-mail sign, dot, hyphen, newline or tab. */
  lemma NormalisedHasNoPunctuation(r: string)
    requires Normalised(r)
    ensures forall k :: 0 <= k < |r| ==> r[k] !in {'@', '.', '-', '\n', '\t'}
  {
    forall k | 0 <= k < |r|
      ensures r[k] !in {'@', '.', '-', '\n', '\t'}
    {
      assert WordOrBlank(r[k]);
    }
  }

  /** The collapse scan leaves a single-spaced string unchanged. */
  lemma {:induction false} CollapseKeepsNormalised(r: string, i: nat)
    requires i <= |r|
    requires forall k :: 0 <= k < |r| ==> WordOrBlank(r[k])
    requires forall k :: 0 <= k < |r| - 1 ==> !(r[k] == ' ' && r[k + 1] == ' ')
    ensures Sub(SpaceRunPattern, r, i) == r[i..]
    decreases |r| - i
  {
    if i < |r| {
      CollapseKeepsNormalised(r, i + 1);
      if IsSpace(r[i]) {
        assert RunEnd(r, i, IsSpace) == i + 1 by {
          assert i + 1 == |r| || !IsSpace(r[i + 1]);
        }
      }
      assert r[i..] == [r[i]] + r[i + 1..];
    }
  }

  /** A normalised string is a fixed point of the clean-up stages 5 to 7: none
    * of them changes the output of `preprocess_text` again. */
  lemma CleanupFixesNormalised(r: string)
    requires Normalised(r)
    ensures PunctuationToSpace(r) == r
    ensures CollapseWhitespace(r) == r
    ensures CollapseNewlines(r) == r
    ensures Strip(r) == r
  {
    CollapseKeepsNormalised(r, 0);
    assert StripStart(r) == 0 by {
      assert |r| == 0 || !IsSpace(r[0]);
    }
    assert TrailingSpaceStart(r, 0, |r|) == |r|;
  }

  lemma {:induction false} RemoveSpacesEmpty(a: string)
    requires RemoveSpaces(a) == []
    ensures forall k :: 0 <= k < |a| ==> IsSpace(a[k])
  {
    if a != [] {
      RemoveSpacesEmpty(a[1..]);
      assert forall k :: 1 <= k < |a| ==> a[k] == a[1..][k - 1];
    }
  }

  /** `preprocess_text`: lower-case, mask e-mails, phones and URLs, turn
    * punctuation into spaces, collapse whitespace and newlines, strip. The
    * result holds only word characters and single spaces, with no space at
    * either end. */
  function PreprocessText(text: string): (r: string)
    ensures Normalised(r)
  {
    var lowered := Lower(text);
    var noEmails := MaskEmails(lowered);
    var noPhones := MaskPhones(noEmails);
    var noUrls := MaskUrls(noPhones);
    var noPunctuation := PunctuationToSpace(noUrls);
    var collapsed := CollapseWhitespace(noPunctuation);
    CleanupStagesShape(noUrls);
    NewlineStageIsNoOp(noPunctuation);
    StripNormalises(collapsed);
    Strip(CollapseNewlines(collapsed))
  }

  /** No punctuation, e-mail sign, dot, hyphen, newline or tab survives `preprocess_text`. */
  lemma PreprocessDropsPunctuation(text: string)
    ensures forall k :: 0 <= k < |PreprocessText(text)| ==>
      PreprocessText(text)[k] !in {'@', '.', '-', '\n', '\t'}
  {
    NormalisedHasNoPunctuation(PreprocessText(text));
  }

  /**
   * A text of punctuation and whitespace only, without an `@`, normalises to
   * the empty string.
   */
  lemma SymbolsOnlyVanish(text: string)
    requires forall k :: 0 <= k < |text| ==> !IsWordChar(text[k]) && text[k] != '@'
    ensures PreprocessText(text) == ""
  {
    var lowered := Lower(text);
    assert lowered == text;
    assert MaskEmails(text) == text;
    assert forall k :: 0 <= k < |text| ==> !IsDigit(text[k]) && text[k] != 'h' && text[k] != 'w';
    assert MaskPhones(text) == text;
    assert MaskUrls(text) == text;
    var spaces := PunctuationToSpace(text);
    assert forall k :: 0 <= k < |spaces| ==> IsSpace(spaces[k]);
    RemoveSpacesOfSpaces(spaces);
    var collapsed := CollapseWhitespace(spaces);
    RemoveSpacesEmpty(collapsed);
    NewlineFreeUnchanged(collapsed);
    assert StripStart(collapsed) == |collapsed|;
  }
}

=== FILE: phone.dfy ===
/**
 * Stage 3 of the normaliser,
 * `re.sub(r'\b\d{3}[-.]?\d{3}[-.]?\d{4}\b', ' PHONE ', text)`.
 */
module PhoneMask {
  import opened Wrappers
  import opened CharClasses
  import opened Regex

  /** Without a digit the phone expression matches nowhere. */
  lemma PhoneNeedsDigit(s: string)
    ensures (forall k :: 0 <= k < |s| ==> !IsDigit(s[k])) ==> Sub(PhonePattern, s, 0) == s
  {
    if forall k :: 0 <= k < |s| ==> !IsDigit(s[k]) {
      forall j | 0 <= j < |s| ensures MatchAt(PhonePattern, s, j).None? {
        assert !IsDigit(s[j]);
        assert !DigitsAt(s, j, 3);
      }
      SubIdentity(PhonePattern, s);
    }
  }

  /** Stage 3: every match of `\b\d{3}[-.]?\d{3}[-.]?\d{4}\b` becomes " PHONE ".
    * Text without a digit is left as it is. */
  function MaskPhones(s: string): (r: string)
    ensures (forall k :: 0 <= k < |s| ==> !IsDigit(s[k])) ==> r == s
    ensures forall k :: 0 <= k < |r| ==> r[k] in s || r[k] in " PHONE "
  {
    SubCharacters(PhonePattern, s, 0);
    assert s[0..] == s;
    PhoneNeedsDigit(s);
    Sub(PhonePattern, s, 0)
  }

  /** `t[lo..hi]` consists of digits. */
  predicate DigitsIn(t: string, lo: nat, hi: nat)
    requires lo <= hi <= |t|
  {
    forall k :: lo <= k < hi ==> IsDigit(t[k])
  }

  /** Ten digits, with an optional `-` or `.` after the third and after the sixth. */
  predicate IsPhoneNumber(t: string) {
    || (|t| == 10 && DigitsIn(t, 0, 10))
    || (|t| == 11 && DigitsIn(t, 0, 3) && IsPhoneSeparator(t[3]) && DigitsIn(t, 4, 11))
    || (|t| == 11 && DigitsIn(t, 0, 6) && IsPhoneSeparator(t[6]) && DigitsIn(t, 7, 11))
    || (|t| == 12 && DigitsIn(t, 0, 3) && IsPhoneSeparator(t[3]) && DigitsIn(t, 4, 7)
                  && IsPhoneSeparator(t[7]) && DigitsIn(t, 8, 12))
  }

  /** Start of the text, or a non-word character just before `i`. */
  predicate NonWordBefore(s: string, i: nat)
    requires i <= |s|
  {
    i == 0 || !IsWordChar(s[i - 1])
  }

  /** End of the text, or a non-word character at `e`. */
  predicate NonWordAfter(s: string, e: nat)
    requires e <= |s|
  {
    e == |s| || !IsWordChar(s[e])
  }

  /** What the phone expression matches is a phone number between non-word characters. */
  lemma PhoneMatchSound(s: string, i: nat, e: nat)
    requires i < |s| && i <= e <= |s|
    requires MatchAt(PhonePattern, s, i) == Some(e)
    ensures NonWordBefore(s, i) && IsPhoneNumber(s[i..e]) && NonWordAfter(s, e)
  {
    var t := s[i..e];
    assert forall k :: 0 <= k < |t| ==> t[k] == s[i + k];
    assert IsDigit(s[i]) && IsDigit(s[e - 1]);
  }

  /** A phone number starts and ends with a digit. */
  lemma PhoneNumberEnds(t: string)
    requires IsPhoneNumber(t)
    ensures IsDigit(t[0]) && IsDigit(t[|t| - 1])
  {
  }

  /** Digits of a slice are digits of the text. */
  lemma DigitsOfSlice(s: string, i: nat, e: nat, lo: nat, hi: nat)
    requires i <= e <= |s| && lo <= hi <= e - i
    requires DigitsIn(s[i..e], lo, hi)
    ensures DigitsAt(s, i + lo, hi - lo)
  {
    forall k | i + lo <= k < i + hi
      ensures IsDigit(s[k])
    {
      assert s[k] == s[i..e][k - i];
    }
  }

  /** A phone number between non-word characters is matched, whole. */
  lemma PhoneMatchComplete(s: string, i: nat, e: nat)
    requires i < |s| && i <= e <= |s|
    requires NonWordBefore(s, i) && IsPhoneNumber(s[i..e]) && NonWordAfter(s, e)
    ensures MatchAt(PhonePattern, s, i) == Some(e)
  {
    var t := s[i..e];
    PhoneNumberEnds(t);
    assert IsDigit(s[i]) && IsDigit(s[e - 1]) by {
      assert t[0] == s[i] && t[|t| - 1] == s[e - 1];
    }
    assert WordBoundary(s, i) && WordBoundary(s, e);
    if |t| == 10 {
      DigitsOfSlice(s, i, e, 0, 3);
      DigitsOfSlice(s, i, e, 3, 6);
      DigitsOfSlice(s, i, e, 6, 10);
    } else if |t| == 11 && IsPhoneSeparator(t[3]) {
      assert s[i + 3] == t[3];
      DigitsOfSlice(s, i, e, 0, 3);
      DigitsOfSlice(s, i, e, 4, 7);
      DigitsOfSlice(s, i, e, 7, 11);
    } else if |t| == 11 {
      assert s[i + 6] == t[6];
      DigitsOfSlice(s, i, e, 0, 3);
      DigitsOfSlice(s, i, e, 3, 6);
      DigitsOfSlice(s, i, e, 7, 11);
    } else {
      assert s[i + 3] == t[3] && s[i + 7] == t[7];
      DigitsOfSlice(s, i, e, 0, 3);
      DigitsOfSlice(s, i, e, 4, 7);
      DigitsOfSlice(s, i, e, 8, 12);
    }
  }

  /**
   * The phone expression matches from `i` to `e` exactly when `s[i..e]` is a
   * phone number with no word character on either side.
   */
  lemma PhoneMatchIff(s: string, i: nat, e: nat)
    requires i < |s| && i <= e <= |s|
    ensures MatchAt(PhonePattern, s, i) == Some(e) <==>
      NonWordBefore(s, i) && IsPhoneNumber(s[i..e]) && NonWordAfter(s, e)
  {
    if MatchAt(PhonePattern, s, i) == Some(e) {
      PhoneMatchSound(s, i, e);
    }
    if NonWordBefore(s, i) && IsPhoneNumber(s[i..e]) && NonWordAfter(s, e) {
      PhoneMatchComplete(s, i, e);
    }
  }

  /** No phone match starts inside another: a position inside a match either
    * follows a digit (no `\b`) or follows a separator that leaves too few
    * digits before the match's right boundary. */
  lemma PhoneMatchesDoNotNest(s: string, k: nat, i: nat)
    requires k < i < |s|
    requires MatchAt(PhonePattern, s, k).Some? && i < MatchAt(PhonePattern, s, k).value
    ensures MatchAt(PhonePattern, s, i).None?
  {
    var e := MatchAt(PhonePattern, s, k).value;
    PhoneMatchIff(s, k, e);
    var t := s[k..e];
    assert forall m :: 0 <= m < |t| ==> t[m] == s[k + m];
    var r := MatchAt(PhonePattern, s, i);
    if r.Some? {
      PhoneMatchIff(s, i, r.value);
    }
  }

  /** A match carries over to another text that holds the same characters
    * with non-word characters (or the text's ends) around them. */
  lemma PhoneMatchMoves(s: string, i: nat, f: nat, u: string, j: nat)
    requires i < f <= |s| && j + (f - i) <= |u| && j < |u|
    requires MatchAt(PhonePattern, s, i) == Some(f)
    requires s[i..f] == u[j..j + (f - i)]
    requires NonWordBefore(u, j) && NonWordAfter(u, j + (f - i))
    ensures MatchAt(PhonePattern, u, j) == Some(j + (f - i))
  {
    PhoneMatchSound(s, i, f);
    PhoneMatchComplete(u, j, j + (f - i));
  }

  /** How the characters of `s[..i]` up to `f` line up with `s`. */
  lemma PrefixSlices(s: string, i: nat, k: nat, f: nat)
    requires k < f <= i <= |s|
    ensures s[..i][k..f] == s[k..f]
    ensures s[..i][f - 1] == s[f - 1]
    ensures f < i ==> s[..i][f] == s[f]
    ensures k > 0 ==> s[..i][k - 1] == s[k - 1]
  {
  }

  /** No phone match in `s` ends at or runs past the start `i` of a phone
    * number that follows a non-word character. */
  lemma PhoneMatchEndsBefore(s: string, i: nat, e: nat, k: nat)
    requires k < i < e <= |s|
    requires NonWordBefore(s, i) && IsPhoneNumber(s[i..e]) && NonWordAfter(s, e)
    requires MatchAt(PhonePattern, s, k).Some?
    ensures MatchAt(PhonePattern, s, k).value < i
  {
    var f := MatchAt(PhonePattern, s, k).value;
    if i < f {
      PhoneMatchIff(s, i, e);
      PhoneMatchesDoNotNest(s, k, i);
    }
    PhoneMatchSound(s, k, f);
    PhoneNumberEnds(s[k..f]);
    assert s[k..f][f - k - 1] == s[f - 1];
  }

  /** A match in `s` before the start `i` of such a phone number is one in `s[..i]`. */
  lemma WholeToPrefix(s: string, i: nat, e: nat, k: nat)
    requires k < i < e <= |s|
    requires NonWordBefore(s, i) && IsPhoneNumber(s[i..e]) && NonWordAfter(s, e)
    requires MatchAt(PhonePattern, s, k).Some?
    ensures MatchAt(PhonePattern, s[..i], k) == MatchAt(PhonePattern, s, k)
  {
    var f := MatchAt(PhonePattern, s, k).value;
    PhoneMatchEndsBefore(s, i, e, k);
    PrefixSlices(s, i, k, f);
    PhoneMatchMoves(s, k, f, s[..i], k);
  }

  /** A match in `s[..i]` is one in `s`, when `s[i - 1]` is a non-word character. */
  lemma PrefixToWhole(s: string, i: nat, k: nat)
    requires k < i <= |s| && NonWordBefore(s, i)
    requires MatchAt(PhonePattern, s[..i], k).Some?
    ensures MatchAt(PhonePattern, s, k) == MatchAt(PhonePattern, s[..i], k)
  {
    var a := s[..i];
    var f := MatchAt(PhonePattern, a, k).value;
    PhoneMatchSound(a, k, f);
    PhoneNumberEnds(a[k..f]);
    PrefixSlices(s, i, k, f);
    assert a[k..f][f - k - 1] == a[f - 1];
    PhoneMatchMoves(a, k, f, s, k);
  }

  /** Before the start `i` of a phone number that follows a non-word
    * character, the matches in `s` are those in `s[..i]`. */
  lemma PhoneMatchPrefix(s: string, i: nat, e: nat, k: nat)
    requires k < i < e <= |s|
    requires NonWordBefore(s, i) && IsPhoneNumber(s[i..e]) && NonWordAfter(s, e)
    ensures MatchAt(PhonePattern, s, k) == MatchAt(PhonePattern, s[..i], k)
  {
    if MatchAt(PhonePattern, s, k).Some? {
      WholeToPrefix(s, i, e, k);
    }
    if MatchAt(PhonePattern, s[..i], k).Some? {
      PrefixToWhole(s, i, k);
    }
  }

  /** How the characters of `a + b` from `|a| + k` to `f` line up with `b`. */
  lemma SuffixSlices(a: string, b: string, k: nat, f: nat)
    requires k < |b| && |a| + k < f <= |a| + |b|
    ensures (a + b)[|a| + k..f] == b[k..f - |a|]
    ensures (a + b)[|a| + k..f][0] == b[k]
    ensures f < |a| + |b| ==> (a + b)[f] == b[f - |a|]
    ensures k > 0 ==> (a + b)[|a| + k - 1] == b[k - 1]
  {
  }

  /** A match in `a + b` that starts inside `b` is one in `b`, when a
    * non-word character (or the start of the text) is on one side of the seam. */
  lemma WholeToSuffix(a: string, b: string, k: nat)
    requires k < |b| && (!IsWordChar(b[0]) || a == [] || !IsWordChar(a[|a| - 1]))
    requires MatchAt(PhonePattern, a + b, |a| + k).Some?
    ensures MatchAt(PhonePattern, b, k) == Some(MatchAt(PhonePattern, a + b, |a| + k).value - |a|)
  {
    var s := a + b;
    var f := MatchAt(PhonePattern, s, |a| + k).value;
    PhoneMatchSound(s, |a| + k, f);
    PhoneNumberEnds(s[|a| + k..f]);
    SuffixSlices(a, b, k, f);
    PhoneMatchMoves(s, |a| + k, f, b, k);
  }

  /** A match in `b` is one in `a + b`, when a non-word character (or the
    * start of the text) is on one side of the seam. */
  lemma SuffixToWhole(a: string, b: string, k: nat)
    requires k < |b| && (!IsWordChar(b[0]) || a == [] || !IsWordChar(a[|a| - 1]))
    requires MatchAt(PhonePattern, b, k).Some?
    ensures MatchAt(PhonePattern, a + b, |a| + k) == Some(|a| + MatchAt(PhonePattern, b, k).value)
  {
    var s := a + b;
    var f := MatchAt(PhonePattern, b, k).value;
    PhoneMatchSound(b, k, f);
    PhoneNumberEnds(b[k..f]);
    SuffixSlices(a, b, k, |a| + f);
    PhoneMatchMoves(b, k, f, s, |a| + k);
  }

  /** After a text `a`, a text `b` holds the same matches, moved by `|a|`,
    * when a non-word character (or the start of the text) is on one side of
    * the seam. */
  lemma PhoneMatchSuffix(a: string, b: string, k: nat)
    requires k < |b| && (!IsWordChar(b[0]) || a == [] || !IsWordChar(a[|a| - 1]))
    ensures MatchAt(PhonePattern, a + b, |a| + k) == ShiftMatch(MatchAt(PhonePattern, b, k), |a|)
  {
    if MatchAt(PhonePattern, b, k).Some? {
      SuffixToWhole(a, b, k);
    }
    if MatchAt(PhonePattern, a + b, |a| + k).Some? {
      WholeToSuffix(a, b, k);
    }
  }

  /** The scan reaches the start `i` of a phone number having produced the
    * scan of `s[..i]`. */
  lemma PhoneScanSplits(s: string, i: nat, e: nat)
    requires i < e <= |s|
    requires NonWordBefore(s, i) && IsPhoneNumber(s[i..e]) && NonWordAfter(s, e)
    ensures MaskPhones(s) == MaskPhones(s[..i]) + Sub(PhonePattern, s, i)
  {
    var a := s[..i];
    assert a + s[i..] == s;
    forall k | 0 <= k < |a|
      ensures MatchAt(PhonePattern, a + s[i..], k) == MatchAt(PhonePattern, a, k)
    {
      PhoneMatchPrefix(s, i, e, k);
    }
    SubAppend(PhonePattern, a, s[i..]);
  }

  /** From the end `e` of a phone number on, the scan is the scan of `s[e..]`. */
  lemma PhoneScanShifts(s: string, e: nat)
    requires 0 < e <= |s| && NonWordAfter(s, e)
    ensures Sub(PhonePattern, s, e) == MaskPhones(s[e..])
  {
    var a, b := s[..e], s[e..];
    assert a + b == s;
    assert b != [] ==> b[0] == s[e];
    forall k | 0 <= k < |b|
      ensures MatchAt(PhonePattern, a + b, |a| + k) == ShiftMatch(MatchAt(PhonePattern, b, k), |a|)
    {
      PhoneMatchSuffix(a, b, k);
    }
    SubShift(PhonePattern, a, b);
  }

  /**
   * A phone number with no word character on either side is replaced by
   * " PHONE ", and the text before and after it is masked on its own.
   */
  lemma PhoneNumberMasked(s: string, i: nat, e: nat)
    requires i < e <= |s|
    requires NonWordBefore(s, i) && IsPhoneNumber(s[i..e]) && NonWordAfter(s, e)
    ensures MaskPhones(s) == MaskPhones(s[..i]) + " PHONE " + MaskPhones(s[e..])
  {
    PhoneScanSplits(s, i, e);
    PhoneMatchIff(s, i, e);
    SubStep(PhonePattern, s, i);
    PhoneScanShifts(s, e);
    ConcatAssoc(MaskPhones(s[..i]), " PHONE ", MaskPhones(s[e..]));
  }

  /** A phone number holds only digits and separators, so no whitespace. */
  lemma PhoneNumberHasNoSpace(t: string)
    requires IsPhoneNumber(t)
    ensures forall m :: 0 <= m < |t| ==> IsDigit(t[m]) || IsPhoneSeparator(t[m])
    ensures forall m :: 0 <= m < |t| ==> !IsSpace(t[m])
  {
  }

  /** A whitespace character on one side of the seam (or an empty `b`)
    * leaves the matches that start in `a` as they are when `b` follows. */
  lemma PhoneMatchBeforeBlank(a: string, b: string, k: nat)
    requires k < |a| && (IsSpace(a[|a| - 1]) || b == [] || IsSpace(b[0]))
    ensures MatchAt(PhonePattern, a + b, k) == MatchAt(PhonePattern, a, k)
  {
    var s := a + b;
    if MatchAt(PhonePattern, a, k).Some? {
      var f := MatchAt(PhonePattern, a, k).value;
      PhoneMatchSound(a, k, f);
      assert s[k..f] == a[k..f];
      assert k > 0 ==> s[k - 1] == a[k - 1];
      assert f < |a| ==> s[f] == a[f];
      assert f == |a| && b != [] ==> s[f] == b[0];
      PhoneMatchMoves(a, k, f, s, k);
    }
    if MatchAt(PhonePattern, s, k).Some? {
      var f := MatchAt(PhonePattern, s, k).value;
      PhoneMatchSound(s, k, f);
      PhoneNumberHasNoSpace(s[k..f]);
      assert s[..|a|] == a;
      PrefixSlices(s, |a|, k, f);
      PhoneMatchMoves(s, k, f, a, k);
    }
  }

  /** No phone number spans a whitespace character, so next to one the text
    * on either side is masked on its own. */
  lemma PhoneSplitsAtBlank(a: string, b: string)
    requires (a == [] || IsSpace(a[|a| - 1])) || (b == [] || IsSpace(b[0]))
    ensures MaskPhones(a + b) == MaskPhones(a) + MaskPhones(b)
  {
    forall k | 0 <= k < |a|
      ensures MatchAt(PhonePattern, a + b, k) == MatchAt(PhonePattern, a, k)
    {
      PhoneMatchBeforeBlank(a, b, k);
    }
    SubAppend(PhonePattern, a, b);
    forall k | 0 <= k < |b|
      ensures MatchAt(PhonePattern, a + b, |a| + k) == ShiftMatch(MatchAt(PhonePattern, b, k), |a|)
    {
      PhoneMatchSuffix(a, b, k);
    }
    SubShift(PhonePattern, a, b);
  }

  /** Space separators are not allowed. */
  lemma SpaceSeparatedPhoneStays()
    ensures MaskPhones("123 456 7890") == "123 456 7890"
  {
    var a := "123 456 7890";
    forall j | 0 <= j < |a|
      ensures MatchAt(PhonePattern, a, j).None?
    {
      assert !IsDigit(a[3]) && !IsDigit(a[7]);
    }
    SubIdentity(PhonePattern, a);
  }

  /** A trailing underscore is a word character, so `\b` fails after the digits. */
  lemma UnderscoreBoundPhoneStays()
    ensures MaskPhones("1234567890_") == "1234567890_"
  {
    var b := "1234567890_";
    forall j | 0 <= j < |b|
      ensures MatchAt(PhonePattern, b, j).None?
    {
      assert IsWordChar(b[10]);
    }
    SubIdentity(PhonePattern, b);
  }

  /** The phone expression matches the whole of `555-123-4567` after a space. */
  lemma DashedPhoneMatch(c: string)
    requires c == "call 555-123-4567"
    ensures MatchAt(PhonePattern, c, 5) == Some(17)
  {
    var t := c[5..17];
    assert IsPhoneNumber(t) by {
      assert t == "555-123-4567";
      assert DigitsIn(t, 0, 3) && DigitsIn(t, 4, 7) && DigitsIn(t, 8, 12);
    }
    assert NonWordBefore(c, 5) by {
      assert c[4] == ' ';
    }
    PhoneMatchIff(c, 5, 17);
  }

  /** Dash-separated digits after a space are masked. */
  lemma DashedPhoneMasked(c: string)
    requires c == "call 555-123-4567"
    ensures MaskPhones(c) == "call  PHONE "
  {
    forall j | 0 <= j < 5
      ensures MatchAt(PhonePattern, c, j).None?
    {
      assert !IsDigit(c[j]);
    }
    SubSkip(PhonePattern, c, 0, 5);
    DashedPhoneMatch(c);
    SubStep(PhonePattern, c, 5);
    assert Sub(PhonePattern, c, 17) == [];
    assert c[0..5] == "call ";
  }
}

=== FILE: provenance.dfy ===
/**
 * Where the characters of `preprocess_text`'s result come from. Lower-casing
 * runs first and the mask tokens are inserted in upper case afterwards, so
 * every upper-case letter of the result was written by the EMAIL, PHONE or
 * URL substitution.
 */
module Provenance {
  import opened Wrappers
  import opened CharClasses
  import opened Regex
  import opened EmailMask
  import opened PhoneMask
  import opened UrlMask
  import opened Normaliser

  /** A character of the input, or one written by a substitution. */
  datatype Origin = Original | Inserted(stage: Pattern)

  /** The origins of the characters the scan outputs, given the origins `o`
    * of the characters of `s`; it follows the scan step by step. */
  function ScanOrigin(s: string, t: seq<Option<nat>>, p: Pattern, o: seq<Origin>, i: nat): (r: seq<Origin>)
    requires ValidMatches(s, t) && |o| == |s| && i <= |s|
    ensures |r| == |Scan(s, t, Replacement(p), i)|
    decreases |s| - i
  {
    if i == |s| then []
    else
      ScanStep(s, t, Replacement(p), i);
      match t[i]
      case Some(e) => seq(|Replacement(p)|, _ => Inserted(p)) + ScanOrigin(s, t, p, o, e)
      case None => [o[i]] + ScanOrigin(s, t, p, o, i + 1)
  }

  function SubOrigin(p: Pattern, s: string, o: seq<Origin>): (r: seq<Origin>)
    requires |o| == |s|
    ensures |r| == |Sub(p, s, 0)|
  {
    ScanOrigin(s, Matches(p, s), p, o, 0)
  }

  /**
   * `o` records the origin of each character of `s`: an inserted character
   * belongs to the replacement of its substitution, and an upper-case letter
   * was inserted by a mask substitution.
   */
  predicate Tracks(s: string, o: seq<Origin>) {
    && |s| == |o|
    && (forall k :: 0 <= k < |s| && o[k].Inserted? ==> s[k] in Replacement(o[k].stage))
    && (forall k :: 0 <= k < |s| && IsUpper(s[k]) ==> o[k].Inserted? && IsMask(o[k].stage))
  }

  /** Only the mask tokens hold upper-case letters. */
  lemma UpperOnlyInMaskTokens(p: Pattern)
    ensures forall k :: 0 <= k < |Replacement(p)| && IsUpper(Replacement(p)[k]) ==> IsMask(p)
  {
  }

  lemma {:induction false} ScanTracks(s: string, t: seq<Option<nat>>, p: Pattern, o: seq<Origin>, i: nat)
    requires ValidMatches(s, t) && Tracks(s, o) && i <= |s|
    ensures Tracks(Scan(s, t, Replacement(p), i), ScanOrigin(s, t, p, o, i))
    decreases |s| - i
  {
    if i < |s| {
      ScanStep(s, t, Replacement(p), i);
      match t[i]
      case Some(e) =>
        ScanTracks(s, t, p, o, e);
        UpperOnlyInMaskTokens(p);
        var r, rest := Replacement(p), Scan(s, t, Replacement(p), e);
        var ro: seq<Origin> := seq(|r|, _ => Inserted(p));
        var restO := ScanOrigin(s, t, p, o, e);
        forall k | 0 <= k < |r| + |rest|
          ensures (ro + restO)[k].Inserted? ==> (r + rest)[k] in Replacement((ro + restO)[k].stage)
          ensures IsUpper((r + rest)[k]) ==> (ro + restO)[k].Inserted? && IsMask((ro + restO)[k].stage)
        {
          if k >= |r| {
            assert (r + rest)[k] == rest[k - |r|] && (ro + restO)[k] == restO[k - |r|];
          } else {
            assert (r + rest)[k] == r[k] && (ro + restO)[k] == Inserted(p);
          }
        }
      case None =>
        ScanTracks(s, t, p, o, i + 1);
        var rest := Scan(s, t, Replacement(p), i + 1);
        var restO := ScanOrigin(s, t, p, o, i + 1);
        forall k | 0 <= k < 1 + |rest|
          ensures ([o[i]] + restO)[k].Inserted? ==> ([s[i]] + rest)[k] in Replacement(([o[i]] + restO)[k].stage)
          ensures IsUpper(([s[i]] + rest)[k]) ==> ([o[i]] + restO)[k].Inserted? && IsMask(([o[i]] + restO)[k].stage)
        {
          if k >= 1 {
            assert ([s[i]] + rest)[k] == rest[k - 1] && ([o[i]] + restO)[k] == restO[k - 1];
          }
        }
    }
  }

  /** Every substitution keeps the record of origins accurate. */
  lemma SubTracks(p: Pattern, s: string, o: seq<Origin>)
    requires Tracks(s, o)
    ensures Tracks(Sub(p, s, 0), SubOrigin(p, s, o))
  {
    ScanTracks(s, Matches(p, s), p, o, 0);
  }

  /** The origins of the characters `str.strip()` keeps. */
  function StripOrigin(s: string, o: seq<Origin>): seq<Origin>
    requires |o| == |s|
  {
    o[StripStart(s)..StripStart(s) + |Strip(s)|]
  }

  lemma StripTracks(s: string, o: seq<Origin>)
    requires Tracks(s, o)
    ensures Tracks(Strip(s), StripOrigin(s, o))
  {
    var a := StripStart(s);
    var r := Strip(s);
    assert forall k :: 0 <= k < |r| ==> r[k] == s[a + k] && StripOrigin(s, o)[k] == o[a + k];
  }

  /** The origins of the characters of `preprocess_text`'s result, stage by stage. */
  function PreprocessOrigin(text: string): seq<Origin> {
    var lowered := Lower(text);
    var o1: seq<Origin> := seq(|lowered|, _ => Original);
    var noEmails := MaskEmails(lowered);
    var o2 := SubOrigin(EmailPattern, lowered, o1);
    var noPhones := MaskPhones(noEmails);
    var o3 := SubOrigin(PhonePattern, noEmails, o2);
    var noUrls := MaskUrls(noPhones);
    var o4 := SubOrigin(UrlPattern, noPhones, o3);
    var noPunctuation := PunctuationToSpace(noUrls);
    var o5 := SubOrigin(PunctuationPattern, noUrls, o4);
    var collapsed := CollapseWhitespace(noPunctuation);
    var o6 := SubOrigin(SpaceRunPattern, noPunctuation, o5);
    var o7 := SubOrigin(NewlineRunPattern, collapsed, o6);
    StripOrigin(CollapseNewlines(collapsed), o7)
  }

  /**
   * Every upper-case letter of `preprocess_text`'s result is a letter of an
   * EMAIL, PHONE or URL token written by stage 2, 3 or 4; every other letter
   * is lower-case.
   */
  lemma UppercaseOnlyFromMasks(text: string)
    ensures |PreprocessOrigin(text)| == |PreprocessText(text)|
    ensures forall k :: 0 <= k < |PreprocessText(text)| && IsUpper(PreprocessText(text)[k]) ==>
      PreprocessOrigin(text)[k].Inserted? && IsMask(PreprocessOrigin(text)[k].stage)
      && PreprocessText(text)[k] in Replacement(PreprocessOrigin(text)[k].stage)
  {
    var lowered := Lower(text);
    var o1: seq<Origin> := seq(|lowered|, _ => Original);
    assert Tracks(lowered, o1);
    var noEmails := MaskEmails(lowered);
    var o2 := SubOrigin(EmailPattern, lowered, o1);
    SubTracks(EmailPattern, lowered, o1);
    var noPhones := MaskPhones(noEmails);
    var o3 := SubOrigin(PhonePattern, noEmails, o2);
    SubTracks(PhonePattern, noEmails, o2);
    var noUrls := MaskUrls(noPhones);
    var o4 := SubOrigin(UrlPattern, noPhones, o3);
    SubTracks(UrlPattern, noPhones, o3);
    var noPunctuation := PunctuationToSpace(noUrls);
    var o5 := SubOrigin(PunctuationPattern, noUrls, o4);
    SubTracks(PunctuationPattern, noUrls, o4);
    var collapsed := CollapseWhitespace(noPunctuation);
    var o6 := SubOrigin(SpaceRunPattern, noPunctuation, o5);
    SubTracks(SpaceRunPattern, noPunctuation, o5);
    var o7 := SubOrigin(NewlineRunPattern, collapsed, o6);
    SubTracks(NewlineRunPattern, collapsed, o6);
    StripTracks(CollapseNewlines(collapsed), o7);
  }
}

=== FILE: regex.dfy ===
/**
 * The substitutions `re.sub(pattern, replacement, text)` performed by the
 * normaliser. Each pattern is modelled by a function `MatchAt` that says
 * whether, and where, the regular expression matches when the engine tries
 * it at one position, following the expression's own backtracking order.
 * `Sub` scans left to right and replaces the leftmost non-overlapping
 * matches, as `re.sub` does; none of the patterns can match the empty string.
 */
module Regex {
  import opened Wrappers
  import opened CharClasses

  /** The regular expressions of the normaliser, in the order it applies them. */
  datatype Pattern =
    | EmailPattern        // \S+@\S+
    | PhonePattern        // \b\d{3}[-.]?\d{3}[-.]?\d{4}\b
    | UrlPattern          // http\S+|www.\S+
    | PunctuationPattern  // [^\w\s]
    | SpaceRunPattern     // \s+
    | NewlineRunPattern   // \n+

  /** The replacement string each substitution inserts for a match. */
  function Replacement(p: Pattern): string {
    match p
    case EmailPattern => " EMAIL "
    case PhonePattern => " PHONE "
    case UrlPattern => " URL "
    case PunctuationPattern => " "
    case SpaceRunPattern => " "
    case NewlineRunPattern => "\n"
  }

  /** The three patterns whose replacement is a mask token. */
  predicate IsMask(p: Pattern) {
    p.EmailPattern? || p.PhonePattern? || p.UrlPattern?
  }

  /**
   * End of the longest run of characters of class `inRun` starting at `i`:
   * what a greedy `X+` (or `X*`) consumes from `i`.
   */
  function RunEnd(s: string, i: nat, inRun: char -> bool): (e: nat)
    requires i <= |s|
    ensures i <= e <= |s|
    ensures forall k :: i <= k < e ==> inRun(s[k])
    ensures e == |s| || !inRun(s[e])
    decreases |s| - i
  {
    if i < |s| && inRun(s[i]) then RunEnd(s, i + 1, inRun) else i
  }

  /** Two runs of the same class that start inside one another end at the same place. */
  lemma RunEndWithin(s: string, i: nat, j: nat, inRun: char -> bool)
    requires i <= |s| && i <= j <= RunEnd(s, i, inRun)
    ensures RunEnd(s, j, inRun) == RunEnd(s, i, inRun)
  {
  }

  /** `s[i..i+n]` exists and consists of `\d` characters. */
  predicate DigitsAt(s: string, i: nat, n: nat) {
    i + n <= |s| && forall k :: i <= k < i + n ==> IsDigit(s[k])
  }

  /** `s[i..]` starts with `w`. */
  predicate LiteralAt(s: string, i: nat, w: string) {
    i + |w| <= |s| && s[i..i + |w|] == w
  }

  /** `[-.]` */
  predicate IsPhoneSeparator(c: char) {
    c == '-' || c == '.'
  }

  /** `\b`: exactly one of the characters around position `k` is a word character. */
  predicate WordBoundary(s: string, k: nat) {
    (0 < k <= |s| && IsWordChar(s[k - 1])) != (k < |s| && IsWordChar(s[k]))
  }

  /**
   * `\S+@\S+` tried at `i`, with the first `\S+` holding `k` characters and
   * giving them back one at a time: the first `k` for which an `@` follows,
   * itself followed by a non-space, wins, and the second `\S+` runs to the
   * end of the non-space run.
   */
  function EmailBacktrack(s: string, i: nat, k: nat): (r: Option<nat>)
    requires i + k <= |s|
    ensures r.Some? ==> i + 1 < r.value <= |s|
    decreases k
  {
    if k == 0 then None
    else if i + k + 1 < |s| && s[i + k] == '@' && IsNonSpace(s[i + k + 1]) then
      Some(RunEnd(s, i + k + 1, IsNonSpace))
    else EmailBacktrack(s, i, k - 1)
  }

  /** `\b\d{3}[-.]?\d{3}[-.]?\d{4}\b` tried at `i`. An optional separator is
    * taken when present; when it is present the alternative without it would
    * need a digit in the same place, so no other path can succeed. */
  function PhoneMatchAt(s: string, i: nat): Option<nat> {
    if !WordBoundary(s, i) || !DigitsAt(s, i, 3) then None
    else
      var p := if i + 3 < |s| && IsPhoneSeparator(s[i + 3]) then i + 4 else i + 3;
      if !DigitsAt(s, p, 3) then None
      else
        var q := if p + 3 < |s| && IsPhoneSeparator(s[p + 3]) then p + 4 else p + 3;
        if DigitsAt(s, q, 4) && WordBoundary(s, q + 4) then Some(q + 4) else None
  }

  /** `http\S+|www.\S+` tried at `i`: the left alternative first. The `.`
    * after `www` is unescaped, so it stands for any character but a newline. */
  function UrlMatchAt(s: string, i: nat): Option<nat>
    requires i <= |s|
  {
    if i + 4 < |s| && LiteralAt(s, i, "http") && IsNonSpace(s[i + 4]) then
      Some(RunEnd(s, i + 4, IsNonSpace))
    else if i + 4 < |s| && LiteralAt(s, i, "www") && !IsNewline(s[i + 3]) && IsNonSpace(s[i + 4]) then
      Some(RunEnd(s, i + 4, IsNonSpace))
    else None
  }

  /** Where pattern `p`, tried at position `i`, stops matching; `None` when it fails there. */
  function MatchAt(p: Pattern, s: string, i: nat): (r: Option<nat>)
    requires i < |s|
    ensures r.Some? ==> i < r.value <= |s|
  {
    match p
    case EmailPattern => EmailBacktrack(s, i, RunEnd(s, i, IsNonSpace) - i)
    case PhonePattern => PhoneMatchAt(s, i)
    case UrlPattern => UrlMatchAt(s, i)
    case PunctuationPattern =>
      if !IsWordChar(s[i]) && !IsSpace(s[i]) then Some(i + 1) else None
    case SpaceRunPattern =>
      if IsSpace(s[i]) then Some(RunEnd(s, i, IsSpace)) else None
    case NewlineRunPattern =>
      if IsNewline(s[i]) then Some(RunEnd(s, i, IsNewline)) else None
  }

  /** What pattern `p` does when tried at each position of `s`. */
  function Matches(p: Pattern, s: string): (t: seq<Option<nat>>)
    ensures |t| == |s|
    ensures forall k :: 0 <= k < |s| ==> t[k] == MatchAt(p, s, k)
  {
    seq(|s|, k requires 0 <= k < |s| => MatchAt(p, s, k))
  }

  /** Every match recorded in `t` ends after it starts and inside `s`. */
  predicate ValidMatches(s: string, t: seq<Option<nat>>) {
    |t| == |s| && forall k :: 0 <= k < |t| && t[k].Some? ==> k < t[k].value <= |s|
  }

  /**
   * The left-to-right scan of `re.sub` from position `i`: where a match
   * starts, emit the replacement and resume after the match; elsewhere copy
   * one character. `t[k]` is what the pattern does when tried at `k`.
   */
  function Scan(s: string, t: seq<Option<nat>>, replacement: string, i: nat): string
    requires ValidMatches(s, t) && i <= |s|
    decreases |s| - i
  {
    if i == |s| then []
    else match t[i]
      case Some(e) => replacement + Scan(s, t, replacement, e)
      case None => [s[i]] + Scan(s, t, replacement, i + 1)
  }

  /** `re.sub(p, Replacement(p), s)` when `i` is 0; in general the part of it
    * produced from position `i` on (matching still sees the characters
    * before `i`, as `\b` needs). */
  function Sub(p: Pattern, s: string, i: nat): string
    requires i <= |s|
  {
    Scan(s, Matches(p, s), Replacement(p), i)
  }

  /** Every character of a substitution's result comes from the text after
    * `i` or from the replacement. */
  lemma SubCharacters(p: Pattern, s: string, i: nat)
    requires i <= |s|
    ensures forall k :: 0 <= k < |Sub(p, s, i)| ==> Sub(p, s, i)[k] in s[i..] || Sub(p, s, i)[k] in Replacement(p)
  {
    assert forall j :: i <= j < |s| ==> s[j] == s[i..][j - i];
    ScanKeepsClass(s, Matches(p, s), Replacement(p), i, c => c in s[i..] || c in Replacement(p));
  }

  /** One step of the scan. */
  lemma SubStep(p: Pattern, s: string, i: nat)
    requires i < |s|
    ensures MatchAt(p, s, i).Some? ==> Sub(p, s, i) == Replacement(p) + Sub(p, s, MatchAt(p, s, i).value)
    ensures MatchAt(p, s, i).None? ==> Sub(p, s, i) == [s[i]] + Sub(p, s, i + 1)
  {
  }

  lemma {:induction false} ScanSkip(s: string, t: seq<Option<nat>>, r: string, i: nat, e: nat)
    requires ValidMatches(s, t) && i <= e <= |s|
    requires forall j :: i <= j < e ==> t[j].None?
    ensures Scan(s, t, r, i) == s[i..e] + Scan(s, t, r, e)
    decreases e - i
  {
    if i < e {
      assert Scan(s, t, r, i) == [s[i]] + Scan(s, t, r, i + 1);
      ScanSkip(s, t, r, i + 1, e);
      assert s[i..e] == [s[i]] + s[i + 1..e];
    }
  }

  /** Where no match starts, the scan copies the text unchanged. */
  lemma SubSkip(p: Pattern, s: string, i: nat, e: nat)
    requires i <= e <= |s|
    requires forall j :: i <= j < e ==> MatchAt(p, s, j).None?
    ensures Sub(p, s, i) == s[i..e] + Sub(p, s, e)
  {
    ScanSkip(s, Matches(p, s), Replacement(p), i, e);
  }

  /** A substitution whose pattern matches nowhere leaves the text as it is. */
  lemma SubIdentity(p: Pattern, s: string)
    requires forall j :: 0 <= j < |s| ==> MatchAt(p, s, j).None?
    ensures Sub(p, s, 0) == s
  {
    SubSkip(p, s, 0, |s|);
  }

  lemma {:induction false} ScanKeepsClass(s: string, t: seq<Option<nat>>, r: string, i: nat, inClass: char -> bool)
    requires ValidMatches(s, t) && i <= |s|
    requires forall k :: 0 <= k < |r| ==> inClass(r[k])
    requires forall j :: i <= j < |s| && t[j].None? ==> inClass(s[j])
    ensures forall k :: 0 <= k < |Scan(s, t, r, i)| ==> inClass(Scan(s, t, r, i)[k])
    decreases |s| - i
  {
    if i < |s| {
      match t[i]
      case Some(e) => ScanKeepsClass(s, t, r, e, inClass);
      case None => ScanKeepsClass(s, t, r, i + 1, inClass);
    }
  }

  /**
   * A class of characters that holds of every character of the replacement
   * and of every character the scan copies holds of every character of the
   * result.
   */
  lemma SubKeepsClass(p: Pattern, s: string, i: nat, inClass: char -> bool)
    requires i <= |s|
    requires forall k :: 0 <= k < |Replacement(p)| ==> inClass(Replacement(p)[k])
    requires forall j :: i <= j < |s| && MatchAt(p, s, j).None? ==> inClass(s[j])
    ensures forall k :: 0 <= k < |Sub(p, s, i)| ==> inClass(Sub(p, s, i)[k])
  {
    ScanKeepsClass(s, Matches(p, s), Replacement(p), i, inClass);
  }

  lemma {:induction false} ScanLast(s: string, t: seq<Option<nat>>, r: string, i: nat)
    requires ValidMatches(s, t) && i < |s| && r != []
    ensures var x := Scan(s, t, r, i);
      x != [] && (x[|x| - 1] == s[|s| - 1] || x[|x| - 1] == r[|r| - 1])
    decreases |s| - i
  {
    match t[i]
    case Some(e) =>
      if e < |s| {
        ScanLast(s, t, r, e);
      }
    case None =>
      if i + 1 < |s| {
        ScanLast(s, t, r, i + 1);
      }
  }

  /** The substitution of a non-empty text is non-empty and ends with the
    * text's last character or with the replacement's. */
  lemma SubLast(p: Pattern, s: string)
    requires s != [] && Replacement(p) != []
    ensures var x := Sub(p, s, 0);
      x != [] && (x[|x| - 1] == s[|s| - 1] || x[|x| - 1] == Replacement(p)[|Replacement(p)| - 1])
  {
    ScanLast(s, Matches(p, s), Replacement(p), 0);
  }

  /** The replacements of the three masks start and end with a space, so a
    * mask keeps a text's leading and trailing whitespace character a
    * whitespace character. */
  lemma MaskKeepsBlankEnds(p: Pattern, s: string)
    requires IsMask(p)
    ensures var x := Sub(p, s, 0);
      (s == [] || IsSpace(s[|s| - 1])) ==> (x == [] || IsSpace(x[|x| - 1]))
    ensures var x := Sub(p, s, 0);
      (s == [] || IsSpace(s[0])) ==> (x == [] || IsSpace(x[0]))
  {
    if s != [] {
      SubLast(p, s);
      SubStep(p, s, 0);
    }
  }

  lemma {:induction false} ScanReaches(s: string, t: seq<Option<nat>>, r: string, i: nat, n: nat) returns (j: nat, x: string)
    requires ValidMatches(s, t) && i <= n < |s|
    ensures i <= j <= n
    ensures j == n || (t[j].Some? && t[j].value > n)
    ensures Scan(s, t, r, i) == x + Scan(s, t, r, j)
    decreases n - i
  {
    if i == n {
      j, x := i, [];
    } else {
      match t[i]
      case Some(e) =>
        if e > n {
          j, x := i, [];
        } else {
          var x';
          j, x' := ScanReaches(s, t, r, e, n);
          x := r + x';
          ConcatAssoc(r, x', Scan(s, t, r, j));
        }
      case None =>
        var x';
        j, x' := ScanReaches(s, t, r, i + 1, n);
        x := [s[i]] + x';
        ConcatAssoc([s[i]], x', Scan(s, t, r, j));
    }
  }

  /** The scan either stops at position `n` or jumps over it with a match
    * that starts before it: it never skips `n` while copying. */
  lemma SubReaches(p: Pattern, s: string, n: nat) returns (j: nat, x: string)
    requires n < |s|
    ensures j <= n
    ensures j == n || (MatchAt(p, s, j).Some? && MatchAt(p, s, j).value > n)
    ensures Sub(p, s, 0) == x + Sub(p, s, j)
  {
    j, x := ScanReaches(s, Matches(p, s), Replacement(p), 0, n);
  }

  /** Where the pattern matches, the result holds the replacement: either
    * that match is taken, or an earlier one that runs past it is. */
  lemma SubReplacesAt(p: Pattern, s: string, n: nat) returns (x: string, y: string)
    requires n < |s| && MatchAt(p, s, n).Some?
    ensures Sub(p, s, 0) == x + Replacement(p) + y
  {
    var j;
    j, x := SubReaches(p, s, n);
    SubStep(p, s, j);
    y := Sub(p, s, MatchAt(p, s, j).value);
  }

  lemma ConcatAssoc(a: string, b: string, c: string)
    ensures a + b + c == a + (b + c)
  {
  }

  /** A match position moved right by `d`. */
  function ShiftMatch(m: Option<nat>, d: nat): Option<nat> {
    match m
    case Some(e) => Some(e + d)
    case None => None
  }

  lemma ScanStep(s: string, t: seq<Option<nat>>, r: string, i: nat)
    requires ValidMatches(s, t) && i < |s|
    ensures t[i].Some? ==> Scan(s, t, r, i) == r + Scan(s, t, r, t[i].value)
    ensures t[i].None? ==> Scan(s, t, r, i) == [s[i]] + Scan(s, t, r, i + 1)
  {
  }

  lemma {:induction false} ScanAppend(a: string, b: string, ta: seq<Option<nat>>, tab: seq<Option<nat>>, r: string, j: nat)
    requires ValidMatches(a, ta) && ValidMatches(a + b, tab) && j <= |a|
    requires forall k :: j <= k < |a| ==> tab[k] == ta[k]
    ensures Scan(a + b, tab, r, j) == Scan(a, ta, r, j) + Scan(a + b, tab, r, |a|)
    decreases |a| - j
  {
    if j < |a| {
      var ab := a + b;
      var tail := Scan(ab, tab, r, |a|);
      assert ab[j] == a[j];
      ScanStep(ab, tab, r, j);
      ScanStep(a, ta, r, j);
      var head := if ta[j].Some? then r else [a[j]];
      var next := if ta[j].Some? then ta[j].value else j + 1;
      ScanAppend(a, b, ta, tab, r, next);
      assert head + (Scan(a, ta, r, next) + tail) == (head + Scan(a, ta, r, next)) + tail;
    }
  }

  /** When the matches starting in `a` are the same whether or not `b`
    * follows, the scan of `a + b` is the scan of `a` followed by the scan of
    * `a + b` from where `b` starts. */
  lemma SubAppend(p: Pattern, a: string, b: string)
    requires forall k :: 0 <= k < |a| ==> MatchAt(p, a + b, k) == MatchAt(p, a, k)
    ensures Sub(p, a + b, 0) == Sub(p, a, 0) + Sub(p, a + b, |a|)
  {
    ScanAppend(a, b, Matches(p, a), Matches(p, a + b), Replacement(p), 0);
  }

  lemma {:induction false} ScanShift(a: string, b: string, tb: seq<Option<nat>>, tab: seq<Option<nat>>, r: string, j: nat)
    requires ValidMatches(b, tb) && ValidMatches(a + b, tab) && j <= |b|
    requires forall k :: j <= k < |b| ==> tab[|a| + k] == ShiftMatch(tb[k], |a|)
    ensures Scan(a + b, tab, r, |a| + j) == Scan(b, tb, r, j)
    decreases |b| - j
  {
    if j < |b| {
      match tb[j]
      case Some(e) =>
        assert tab[|a| + j] == Some(|a| + e);
        assert Scan(a + b, tab, r, |a| + j) == r + Scan(a + b, tab, r, |a| + e);
        ScanShift(a, b, tb, tab, r, e);
      case None =>
        assert tab[|a| + j] == None && (a + b)[|a| + j] == b[j];
        assert Scan(a + b, tab, r, |a| + j) == [b[j]] + Scan(a + b, tab, r, |a| + j + 1);
        ScanShift(a, b, tb, tab, r, j + 1);
    }
  }

  /** When the matches in `a + b` from `|a|` on are those of `b` moved by
    * `|a|`, scanning `a + b` from there produces the scan of `b`. */
  lemma SubShift(p: Pattern, a: string, b: string)
    requires forall k :: 0 <= k < |b| ==> MatchAt(p, a + b, |a| + k) == ShiftMatch(MatchAt(p, b, k), |a|)
    ensures Sub(p, a + b, |a|) == Sub(p, b, 0)
  {
    ScanShift(a, b, Matches(p, b), Matches(p, a + b), Replacement(p), 0);
  }

  /** A run that covers `[i, e)` and stops at `e` ends at `e`. */
  lemma {:induction false} RunEndAt(s: string, i: nat, e: nat, inRun: char -> bool)
    requires i <= e <= |s|
    requires forall k :: i <= k < e ==> inRun(s[k])
    requires e == |s| || !inRun(s[e])
    ensures RunEnd(s, i, inRun) == e
    decreases e - i
  {
    if i < e {
      RunEndAt(s, i + 1, e, inRun);
    }
  }

  /** Runs are found the same way after a prefix. */
  lemma {:induction false} RunEndShift(a: string, b: string, i: nat, inRun: char -> bool)
    requires i <= |b|
    ensures RunEnd(a + b, |a| + i, inRun) == |a| + RunEnd(b, i, inRun)
    decreases |b| - i
  {
    if i < |b| {
      assert (a + b)[|a| + i] == b[i];
      RunEndShift(a, b, i + 1, inRun);
    }
  }

  /** A run that stops inside `a` stops at the same place when `b` follows. */
  lemma {:induction false} RunEndPrefix(a: string, b: string, i: nat, inRun: char -> bool)
    requires i <= |a| && RunEnd(a, i, inRun) < |a|
    ensures RunEnd(a + b, i, inRun) == RunEnd(a, i, inRun)
    decreases |a| - i
  {
    assert (a + b)[i] == a[i];
    if inRun(a[i]) {
      RunEndPrefix(a, b, i + 1, inRun);
    }
  }
}

=== FILE: survival.dfy ===
/**
 * What becomes of one e-mail address, phone number or URL on its way through
 * all seven stages of `preprocess_text`: the word of the mask that replaces
 * it is still in the normalised text. The text around the item is
 * arbitrary; the item only has to be delimited by whitespace (or the ends of
 * the text).
 */
module TokenSurvival {
  import opened CharClasses
  import opened Regex
  import opened EmailMask
  import opened PhoneMask
  import opened UrlMask
  import opened Normaliser

  /** `w` occurs in `s` as a contiguous piece. */
  predicate Mentions(s: string, w: string) {
    exists i: nat :: i <= |s| && LiteralAt(s, i, w)
  }

  /** A mask as the masking stages insert it: a blank, upper-case letters
    * (which no later stage matches or changes), a blank. */
  predicate IsPaddedWord(w: string) {
    |w| >= 3 && w[0] == ' ' && w[|w| - 1] == ' '
    && forall k :: 0 < k < |w| - 1 ==> IsUpper(w[k])
  }

  /** The word inside a padded mask. */
  function Inner(w: string): string
    requires |w| >= 2
  {
    w[1..|w| - 1]
  }

  /** The three masks are padded words around EMAIL, PHONE and URL. */
  lemma MaskWords()
    ensures IsPaddedWord(Replacement(EmailPattern)) && Inner(Replacement(EmailPattern)) == "EMAIL"
    ensures IsPaddedWord(Replacement(PhonePattern)) && Inner(Replacement(PhonePattern)) == "PHONE"
    ensures IsPaddedWord(Replacement(UrlPattern)) && Inner(Replacement(UrlPattern)) == "URL"
  {
  }

  /** Stage 5 keeps a padded word in place. */
  lemma PunctuationKeepsWord(x: string, w: string, y: string) returns (a: string, z: string)
    requires IsPaddedWord(w)
    ensures PunctuationToSpace(x + w + y) == a + w + z
  {
    var s := x + w + y;
    var p := PunctuationToSpace(s);
    var i := |x|;
    forall k | 0 <= k < |w|
      ensures p[i + k] == w[k]
    {
      assert s[i + k] == w[k];
    }
    a, z := p[..i], p[i + |w|..];
    assert p[i..i + |w|] == w;
    assert p == a + p[i..i + |w|] + z;
  }

  /** Stage 6 collapses the text on each side of a padded word on its own. */
  lemma CollapseKeepsWord(a: string, w: string, z: string) returns (c1: string, c2: string)
    requires IsPaddedWord(w)
    ensures CollapseWhitespace(a + w + z) == c1 + Inner(w) + c2
  {
    var m := Inner(w);
    var a1, z1 := a + w[..1], w[|w| - 1..] + z;
    assert w == w[..1] + m + w[|w| - 1..];
    assert a + w + z == a1 + (m + z1);
    CollapseSplitsBeside(a1, m + z1);
    CollapseSplitsBeside(m, z1);
    SpacelessUnchanged(m);
    c1, c2 := CollapseWhitespace(a1), CollapseWhitespace(z1);
  }

  /** Stage 7b keeps every piece that neither starts nor ends with whitespace. */
  lemma StripKeepsWord(c: string, j: nat, m: string)
    requires m != [] && !IsSpace(m[0]) && !IsSpace(m[|m| - 1]) && LiteralAt(c, j, m)
    ensures Mentions(Strip(c), m)
  {
    var r := Strip(c);
    var st := StripStart(c);
    assert c[j] == m[0] && c[j + |m| - 1] == m[|m| - 1];
    assert st <= j;
    assert j + |m| <= st + |r|;
    forall i | 0 <= i < |m|
      ensures r[j - st + i] == m[i]
    {
      assert r[j - st + i] == c[j + i];
      assert c[j..j + |m|][i] == c[j + i];
    }
    assert r[j - st..j - st + |m|] == m;
    assert j - st <= |r| && LiteralAt(r, j - st, m);
  }

  /** Stages 5 to 7 keep the word of a padded mask, whatever surrounds it. */
  lemma WordKeptByCleanup(x: string, w: string, y: string)
    requires IsPaddedWord(w)
    ensures Mentions(Strip(CollapseNewlines(CollapseWhitespace(PunctuationToSpace(x + w + y)))), Inner(w))
  {
    var a, z := PunctuationKeepsWord(x, w, y);
    var c1, c2 := CollapseKeepsWord(a, w, z);
    var c := CollapseWhitespace(a + w + z);
    NewlineStageIsNoOp(a + w + z);
    assert LiteralAt(c, |c1|, Inner(w));
    StripKeepsWord(c, |c1|, Inner(w));
  }

  /** A text whose last character is `b`'s only one is its front followed by `b`. */
  lemma SplitLast(u: string, b: string)
    requires u != [] && |b| == 1 && u[|u| - 1] == b[0]
    ensures u == u[..|u| - 1] + b
  {
  }

  /** Regrouping four concatenated texts. */
  lemma Regroup(x: string, b: string, c: string, m: string)
    ensures x + b + (c + m) == x + (b + c) + m
  {
  }

  /** Stage 4 keeps a final blank in place. */
  lemma UrlsKeepFinalBlank(s: string)
    requires s != [] && s[|s| - 1] == ' '
    ensures MaskUrls(s) != [] && MaskUrls(s)[|MaskUrls(s)| - 1] == ' '
  {
    SubLast(UrlPattern, s);
  }

  /** A blank `b` that follows whitespace (or starts the text) cannot end
    * `www` and a blank, so stage 4 splits after it, and what it makes of the
    * text up to the blank still ends in that blank. */
  lemma UrlsSplitAfterBlank(a: string, b: string, v: string) returns (x: string)
    requires a == [] || IsSpace(a[|a| - 1])
    requires |b| == 1 && b[0] == ' '
    ensures MaskUrls(a + b + v) == x + b + MaskUrls(v)
  {
    BlankAfterBlank(a, b);
    UrlSplitsAtBlank(a + b, v);
    UrlsKeepFinalBlank(a + b);
    var u := MaskUrls(a + b);
    SplitLast(u, b);
    x := u[..|u| - 1];
  }

  /** An upper-case letter before the last character rules out `www` and a blank. */
  lemma UpperBeforeEnd(s: string)
    requires |s| >= 2 && IsUpper(s[|s| - 2])
    ensures !EndsWithWwwBlank(s)
  {
  }

  /** A blank after whitespace rules out `www` and a blank. */
  lemma BlankAfterBlank(a: string, c: string)
    requires a == [] || IsSpace(a[|a| - 1])
    requires |c| == 1 && IsSpace(c[0])
    ensures !EndsWithWwwBlank(a + c)
  {
    if a != [] {
      assert (a + c)[|a + c| - 2] == a[|a| - 1];
    }
  }

  /** Stage 4 passes over upper-case letters followed by a blank. */
  lemma UrlsPassWord(w1: string, y: string)
    requires |w1| >= 2 && w1[|w1| - 1] == ' '
    requires forall k :: 0 <= k < |w1| - 1 ==> IsUpper(w1[k])
    ensures MaskUrls(w1 + y) == w1 + MaskUrls(y)
  {
    UpperBeforeEnd(w1);
    UrlSplitsAtBlank(w1, y);
    assert forall k :: 0 <= k < |w1| ==> w1[k] != 'h' && w1[k] != 'w';
  }

  /** Stage 4 leaves a padded mask from an earlier stage alone when the text
    * before it is empty or ends in whitespace. */
  lemma UrlsKeepWord(a: string, w: string, y: string) returns (x: string)
    requires a == [] || IsSpace(a[|a| - 1])
    requires IsPaddedWord(w)
    ensures MaskUrls(a + w + y) == x + w + MaskUrls(y)
  {
    var b, w1 := w[..1], w[1..];
    assert w == b + w1;
    Regroup(a, b, w1, y);
    x := UrlsSplitAfterBlank(a, b, w1 + y);
    UrlsPassWord(w1, y);
    Regroup(x, b, w1, MaskUrls(y));
  }

  /** Stage 3 leaves a padded mask from stage 2 alone. */
  lemma PhonesKeepWord(e: string, w: string, y: string)
    requires IsPaddedWord(w)
    ensures MaskPhones(e + w + y) == MaskPhones(e) + w + MaskPhones(y)
  {
    assert e + w + y == e + (w + y);
    assert MaskPhones(e + (w + y)) == MaskPhones(e) + MaskPhones(w + y) by {
      PhoneSplitsAtBlank(e, w + y);
    }
    assert MaskPhones(w + y) == w + MaskPhones(y) by {
      PhoneSplitsAtBlank(w, y);
      assert MaskPhones(w) == w;
    }
  }

  /** Stages 4 to 7 keep the word of a padded mask from an earlier stage
    * when the text before it is empty or ends in whitespace. */
  lemma WordAfterUrls(a: string, w: string, y: string)
    requires a == [] || IsSpace(a[|a| - 1])
    requires IsPaddedWord(w)
    ensures Mentions(Strip(CollapseNewlines(CollapseWhitespace(PunctuationToSpace(MaskUrls(a + w + y))))), Inner(w))
  {
    var x := UrlsKeepWord(a, w, y);
    WordKeptByCleanup(x, w, MaskUrls(y));
  }

  /** Stages 3 to 7 keep the word of a padded mask from stage 2 when the
    * text before it is empty or ends in whitespace. */
  lemma WordAfterPhones(e: string, w: string, y: string)
    requires e == [] || IsSpace(e[|e| - 1])
    requires IsPaddedWord(w)
    ensures Mentions(Strip(CollapseNewlines(CollapseWhitespace(PunctuationToSpace(MaskUrls(MaskPhones(e + w + y)))))), Inner(w))
  {
    PhonesKeepWord(e, w, y);
    MaskKeepsBlankEnds(PhonePattern, e);
    WordAfterUrls(MaskPhones(e), w, MaskPhones(y));
  }

  /** Stage 1 keeps a whitespace-delimited token whitespace-delimited. */
  lemma LowerAround(pre: string, t: string, post: string)
    requires pre == [] || IsSpace(pre[|pre| - 1])
    requires post == [] || IsSpace(post[0])
    ensures Lower(pre + t + post) == Lower(pre) + Lower(t) + Lower(post)
    ensures Lower(pre) == [] || IsSpace(Lower(pre)[|pre| - 1])
    ensures Lower(post) == [] || IsSpace(Lower(post)[0])
  {
    LowerAppend(pre + t, post);
    LowerAppend(pre, t);
  }

  /** Stages 1 and 2 turn an e-mail-like token into " EMAIL ", and what
    * precedes it is empty or ends in whitespace. */
  lemma EmailStageOnToken(pre: string, t: string, post: string) returns (e1: string, e2: string)
    requires pre == [] || IsSpace(pre[|pre| - 1])
    requires t != [] && forall k :: 0 <= k < |t| ==> !IsSpace(t[k])
    requires IsEmailToken(t)
    requires post == [] || IsSpace(post[0])
    ensures MaskEmails(Lower(pre + t + post)) == e1 + Replacement(EmailPattern) + e2
    ensures e1 == [] || IsSpace(e1[|e1| - 1])
  {
    LowerAround(pre, t, post);
    var l1, lt, l2 := Lower(pre), Lower(t), Lower(post);
    var j :| 0 < j < |t| - 1 && t[j] == '@';
    assert lt[j] == '@';
    EmailTokenInContext(l1, lt, l2);
    e1, e2 := MaskEmails(l1), MaskEmails(l2);
    MaskKeepsBlankEnds(EmailPattern, l1);
  }

  /**
   * An e-mail-like token, delimited by whitespace or the ends of the text,
   * leaves the word EMAIL in the normalised text, whatever surrounds it.
   */
  lemma EmailReachesOutput(pre: string, t: string, post: string)
    requires pre == [] || IsSpace(pre[|pre| - 1])
    requires t != [] && forall k :: 0 <= k < |t| ==> !IsSpace(t[k])
    requires IsEmailToken(t)
    requires post == [] || IsSpace(post[0])
    ensures Mentions(PreprocessText(pre + t + post), "EMAIL")
  {
    MaskWords();
    var e1, e2 := EmailStageOnToken(pre, t, post);
    WordAfterPhones(e1, Replacement(EmailPattern), e2);
  }

  /** Stages 1 and 2 leave a whitespace-delimited token without an `@`
    * lowered but otherwise as it is, with whitespace (or nothing) on either side. */
  lemma EmailStageKeepsToken(pre: string, t: string, post: string) returns (e1: string, e2: string)
    requires pre == [] || IsSpace(pre[|pre| - 1])
    requires t != [] && forall k :: 0 <= k < |t| ==> !IsSpace(t[k]) && t[k] != '@'
    requires post == [] || IsSpace(post[0])
    ensures MaskEmails(Lower(pre + t + post)) == e1 + Lower(t) + e2
    ensures e1 == [] || IsSpace(e1[|e1| - 1])
    ensures e2 == [] || IsSpace(e2[0])
  {
    LowerAround(pre, t, post);
    var l1, lt, l2 := Lower(pre), Lower(t), Lower(post);
    assert forall k :: 0 <= k < |lt| ==> lt[k] == t[k] || IsUpper(t[k]);
    assert !IsEmailToken(lt);
    EmailTokenInContext(l1, lt, l2);
    e1, e2 := MaskEmails(l1), MaskEmails(l2);
    MaskKeepsBlankEnds(EmailPattern, l1);
    MaskKeepsBlankEnds(EmailPattern, l2);
  }

  /** Stage 3 replaces a phone number with whitespace (or nothing) on either
    * side by " PHONE ", and keeps what precedes it empty or ending in whitespace. */
  lemma PhoneStageOnNumber(e1: string, t: string, e2: string) returns (a: string, y: string)
    requires e1 == [] || IsSpace(e1[|e1| - 1])
    requires IsPhoneNumber(t)
    requires e2 == [] || IsSpace(e2[0])
    ensures MaskPhones(e1 + t + e2) == a + Replacement(PhonePattern) + y
    ensures a == [] || IsSpace(a[|a| - 1])
  {
    var e := e1 + t + e2;
    var i, f := |e1|, |e1| + |t|;
    assert e[i..f] == t && e[..i] == e1 && e[f..] == e2;
    assert NonWordBefore(e, i) && NonWordAfter(e, f);
    PhoneNumberMasked(e, i, f);
    a, y := MaskPhones(e1), MaskPhones(e2);
    MaskKeepsBlankEnds(PhonePattern, e1);
  }

  /** Stages 1 to 3 turn a phone number into " PHONE ", and what precedes it
    * is empty or ends in whitespace. */
  lemma PhoneStageOnToken(pre: string, t: string, post: string) returns (a: string, y: string)
    requires pre == [] || IsSpace(pre[|pre| - 1])
    requires IsPhoneNumber(t)
    requires post == [] || IsSpace(post[0])
    ensures MaskPhones(MaskEmails(Lower(pre + t + post))) == a + Replacement(PhonePattern) + y
    ensures a == [] || IsSpace(a[|a| - 1])
  {
    PhoneNumberHasNoSpace(t);
    var e1, e2 := EmailStageKeepsToken(pre, t, post);
    assert Lower(t) == t;
    a, y := PhoneStageOnNumber(e1, t, e2);
  }

  /**
   * A phone number, delimited by whitespace or the ends of the text, leaves
   * the word PHONE in the normalised text, whatever surrounds it.
   */
  lemma PhoneReachesOutput(pre: string, t: string, post: string)
    requires pre == [] || IsSpace(pre[|pre| - 1])
    requires IsPhoneNumber(t)
    requires post == [] || IsSpace(post[0])
    ensures Mentions(PreprocessText(pre + t + post), "PHONE")
  {
    MaskWords();
    var a, y := PhoneStageOnToken(pre, t, post);
    WordAfterUrls(a, Replacement(PhonePattern), y);
  }

  /**
   * Stage 4 writes " URL " for a URL span followed by whitespace or the end
   * of the text, whatever precedes it: either the span's own match does, or
   * a match that starts earlier (after `www` and a blank) swallows the span.
   */
  lemma UrlStageOnSpan(a: string, u: string, b: string) returns (x: string, y: string)
    requires IsUrlSpan(u)
    requires b == [] || IsSpace(b[0])
    ensures MaskUrls(a + u + b) == x + Replacement(UrlPattern) + y
  {
    UrlSpanMatch(a, u, b);
    x, y := SubReplacesAt(UrlPattern, a + u + b, |a|);
  }

  /** Lowering never makes a digit. */
  lemma LowerKeepsDigitFree(t: string)
    requires forall k :: 0 <= k < |t| ==> !IsDigit(t[k])
    ensures forall k :: 0 <= k < |Lower(t)| ==> !IsDigit(Lower(t)[k])
  {
    forall k | 0 <= k < |t|
      ensures !IsDigit(Lower(t)[k])
    {
      if !IsUpper(t[k]) {
        assert Lower(t)[k] == t[k];
      }
    }
  }

  /** Stage 3 leaves digit-free text with whitespace (or nothing) on either side alone. */
  lemma PhonesKeepDigitFree(e1: string, u: string, e2: string)
    requires e1 == [] || IsSpace(e1[|e1| - 1])
    requires forall k :: 0 <= k < |u| ==> !IsDigit(u[k])
    requires e2 == [] || IsSpace(e2[0])
    ensures MaskPhones(e1 + u + e2) == MaskPhones(e1) + u + MaskPhones(e2)
  {
    ConcatAssoc(e1, u, e2);
    PhoneSplitsAtBlank(e1, u + e2);
    PhoneSplitsAtBlank(u, e2);
    assert MaskPhones(u) == u;
    ConcatAssoc(MaskPhones(e1), u, MaskPhones(e2));
  }

  /** Stages 1 to 3 leave a lowered URL token without `@` or digits as it
    * is, with whitespace (or nothing) after it. */
  lemma EarlyStagesKeepUrl(pre: string, t: string, post: string) returns (a: string, b: string)
    requires pre == [] || IsSpace(pre[|pre| - 1])
    requires t != [] && forall k :: 0 <= k < |t| ==> !IsSpace(t[k]) && t[k] != '@' && !IsDigit(t[k])
    requires post == [] || IsSpace(post[0])
    ensures MaskPhones(MaskEmails(Lower(pre + t + post))) == a + Lower(t) + b
    ensures b == [] || IsSpace(b[0])
  {
    var e1, e2 := EmailStageKeepsToken(pre, t, post);
    LowerKeepsDigitFree(t);
    PhonesKeepDigitFree(e1, Lower(t), e2);
    a, b := MaskPhones(e1), MaskPhones(e2);
    MaskKeepsBlankEnds(PhonePattern, e2);
  }

  /**
   * A URL token (lowered, it starts with `http` or `www`) without `@` or
   * digits, delimited by whitespace or the ends of the text, leaves the word
   * URL in the normalised text, whatever surrounds it.
   */
  lemma UrlReachesOutput(pre: string, t: string, post: string)
    requires pre == [] || IsSpace(pre[|pre| - 1])
    requires t != [] && forall k :: 0 <= k < |t| ==> !IsSpace(t[k]) && t[k] != '@' && !IsDigit(t[k])
    requires IsUrlToken(Lower(t))
    requires post == [] || IsSpace(post[0])
    ensures Mentions(PreprocessText(pre + t + post), "URL")
  {
    MaskWords();
    var a, b := EarlyStagesKeepUrl(pre, t, post);
    var lt := Lower(t);
    assert IsUrlSpan(lt) by {
      assert IsSpace('\n');
    }
    var x, y := UrlStageOnSpan(a, lt, b);
    WordKeptByCleanup(x, Replacement(UrlPattern), y);
  }
}

=== FILE: url.dfy ===
/**
 * Stage 4 of the normaliser, `re.sub(r'http\S+|www.\S+', ' URL ', text)`.
 * Because the `.` after `www` is not escaped, it matches any character but a
 * newline, a space included.
 */
module UrlMask {
  import opened Wrappers
  import opened CharClasses
  import opened Regex

  /** Without an `h` or a `w` the URL expression matches nowhere. */
  lemma UrlNeedsLetter(s: string)
    ensures (forall k :: 0 <= k < |s| ==> s[k] != 'h' && s[k] != 'w') ==> Sub(UrlPattern, s, 0) == s
  {
    if forall k :: 0 <= k < |s| ==> s[k] != 'h' && s[k] != 'w' {
      forall j | 0 <= j < |s| ensures MatchAt(UrlPattern, s, j).None? {
        if j + 4 < |s| {
          assert s[j..j + 4][0] == s[j] && s[j..j + 3][0] == s[j];
        }
      }
      SubIdentity(UrlPattern, s);
    }
  }

  /** Stage 4: every match of `http\S+|www.\S+` becomes " URL ". Text without
    * an `h` or a `w` is left as it is. */
  function MaskUrls(s: string): (r: string)
    ensures (forall k :: 0 <= k < |s| ==> s[k] != 'h' && s[k] != 'w') ==> r == s
    ensures forall k :: 0 <= k < |r| ==> r[k] in s || r[k] in " URL "
  {
    SubCharacters(UrlPattern, s, 0);
    assert s[0..] == s;
    UrlNeedsLetter(s);
    Sub(UrlPattern, s, 0)
  }

  /** A whitespace-free token the URL expression takes whole when it starts at
    * the token: `http` or `www`, then at least one more character after the
    * fourth. */
  predicate IsUrlToken(t: string) {
    |t| >= 5 && (t[..4] == "http" || t[..3] == "www")
  }

  /** `www` followed by one blank other than a newline at the very end of the
    * text: the URL expression would reach across that blank. */
  predicate EndsWithWwwBlank(s: string) {
    |s| >= 4 && s[|s| - 4..|s| - 1] == "www" && IsSpace(s[|s| - 1]) && !IsNewline(s[|s| - 1])
  }

  lemma LiteralShift(a: string, b: string, k: nat, w: string)
    ensures LiteralAt(a + b, |a| + k, w) == LiteralAt(b, k, w)
  {
    if k + |w| <= |b| {
      assert (a + b)[|a| + k..|a| + k + |w|] == b[k..k + |w|];
    }
  }

  /** The URL expression never looks to the left of where it is tried. */
  lemma UrlMatchShift(a: string, b: string, k: nat)
    requires k < |b|
    ensures MatchAt(UrlPattern, a + b, |a| + k) == ShiftMatch(MatchAt(UrlPattern, b, k), |a|)
  {
    LiteralShift(a, b, k, "http");
    LiteralShift(a, b, k, "www");
    if k + 4 < |b| {
      assert (a + b)[|a| + k + 4] == b[k + 4];
      assert (a + b)[|a| + k + 3] == b[k + 3];
      RunEndShift(a, b, k + 4, IsNonSpace);
    }
  }

  /** Tried far enough before the end of `pre`, the URL expression reads only `pre`. */
  lemma UrlMatchPrefixFar(pre: string, x: string, k: nat)
    requires k + 4 < |pre| && IsSpace(pre[|pre| - 1])
    ensures UrlMatchAt(pre + x, k) == UrlMatchAt(pre, k)
  {
    var s := pre + x;
    assert s[k + 4] == pre[k + 4];
    assert s[k + 3] == pre[k + 3];
    assert s[k..k + 4] == pre[k..k + 4];
    assert s[k..k + 3] == pre[k..k + 3];
    RunEndPrefix(pre, x, k + 4, IsNonSpace);
  }

  /** A literal found at `i` fixes the characters it covers. */
  lemma LiteralChar(s: string, i: nat, w: string, j: nat)
    requires i <= j < i + |w|
    ensures LiteralAt(s, i, w) ==> s[j] == w[j - i]
  {
    if i + |w| <= |s| {
      assert s[i..i + |w|][j - i] == s[j];
    }
  }

  /** Tried within four characters of the blank that ends `pre`, the URL
    * expression fails, unless `pre` ends in `www` and a blank. */
  lemma UrlMatchPrefixNear(pre: string, x: string, k: nat)
    requires k < |pre| <= k + 4 && IsSpace(pre[|pre| - 1]) && !EndsWithWwwBlank(pre)
    ensures UrlMatchAt(pre + x, k).None?
  {
    var s := pre + x;
    var last := |pre| - 1;
    assert s[last] == pre[last];
    LiteralChar(s, k, "http", last);
    if last <= k + 2 {
      LiteralChar(s, k, "www", last);
    } else {
      assert s[k..k + 3] == pre[|pre| - 4..|pre| - 1];
    }
  }

  /** Before a blank that ends `pre`, the URL expression matches in `pre + x`
    * as it does in `pre` alone, unless `pre` ends in `www` and a blank. */
  lemma UrlMatchPrefix(pre: string, x: string, k: nat)
    requires k < |pre| && IsSpace(pre[|pre| - 1]) && !EndsWithWwwBlank(pre)
    ensures MatchAt(UrlPattern, pre + x, k) == MatchAt(UrlPattern, pre, k)
  {
    if k + 4 < |pre| {
      UrlMatchPrefixFar(pre, x, k);
    } else {
      UrlMatchPrefixNear(pre, x, k);
    }
  }

  /** What the URL expression consumes whole when tried at its start: `http`,
    * or `www` and any character but a newline, then a run of at least one
    * non-space character. */
  predicate IsUrlSpan(t: string) {
    |t| >= 5 && (t[..4] == "http" || (t[..3] == "www" && !IsNewline(t[3])))
    && forall k :: 4 <= k < |t| ==> !IsSpace(t[k])
  }

  /** At the start of a URL span followed by a blank or the end of the text,
    * the expression consumes exactly the span. */
  lemma UrlSpanMatch(pre: string, t: string, post: string)
    requires IsUrlSpan(t)
    requires post == [] || IsSpace(post[0])
    ensures MatchAt(UrlPattern, pre + t + post, |pre|) == Some(|pre| + |t|)
  {
    var s := pre + t + post;
    var i := |pre|;
    assert forall m :: 0 <= m < |t| ==> s[i + m] == t[m];
    assert |t| < |post| + |t| ==> s[i + |t|] == post[0];
    assert s[i..i + 4] == t[..4] by {
      forall m | 0 <= m < 4
        ensures s[i..i + 4][m] == t[..4][m]
      {
        assert s[i + m] == t[m];
      }
    }
    assert s[i..i + 3] == t[..3];
    var e := RunEnd(s, i + 4, IsNonSpace);
    assert e == i + |t|;
  }

  /** Scanning `pre + x` passes through the blank that ends `pre`. */
  lemma UrlScanSplits(s: string, pre: string, x: string)
    requires s == pre + x
    requires pre == [] || (IsSpace(pre[|pre| - 1]) && !EndsWithWwwBlank(pre))
    ensures MaskUrls(s) == MaskUrls(pre) + Sub(UrlPattern, s, |pre|)
  {
    forall k | 0 <= k < |pre|
      ensures MatchAt(UrlPattern, pre + x, k) == MatchAt(UrlPattern, pre, k)
    {
      UrlMatchPrefix(pre, x, k);
    }
    SubAppend(UrlPattern, pre, x);
  }

  /** Scanning `a + b` from where `b` starts is scanning `b`. */
  lemma UrlScanShifts(s: string, a: string, b: string)
    requires s == a + b
    ensures Sub(UrlPattern, s, |a|) == MaskUrls(b)
  {
    forall k | 0 <= k < |b|
      ensures MatchAt(UrlPattern, a + b, |a| + k) == ShiftMatch(MatchAt(UrlPattern, b, k), |a|)
    {
      UrlMatchShift(a, b, k);
    }
    SubShift(UrlPattern, a, b);
  }

  /** Before a blank that does not follow `www`, the text splits: the URL
    * mask of `pre + x` is that of `pre` followed by that of `x`. */
  lemma UrlSplitsAtBlank(pre: string, x: string)
    requires pre == [] || (IsSpace(pre[|pre| - 1]) && !EndsWithWwwBlank(pre))
    ensures MaskUrls(pre + x) == MaskUrls(pre) + MaskUrls(x)
  {
    UrlScanSplits(pre + x, pre, x);
    UrlScanShifts(pre + x, pre, x);
  }

  /** The scan replaces a URL span at its start by " URL " and resumes after it. */
  lemma UrlSpanReplaced(pre: string, t: string, post: string)
    requires IsUrlSpan(t)
    requires post == [] || IsSpace(post[0])
    ensures Sub(UrlPattern, pre + t + post, |pre|) == " URL " + Sub(UrlPattern, pre + t + post, |pre| + |t|)
  {
    UrlSpanMatch(pre, t, post);
    SubStep(UrlPattern, pre + t + post, |pre|);
  }

  /**
   * A URL span between blanks is replaced whole by " URL ", and the text
   * around it is masked on its own, unless the text before it ends in `www`
   * and a blank.
   */
  lemma UrlSpanInContext(pre: string, t: string, post: string)
    requires pre == [] || (IsSpace(pre[|pre| - 1]) && !EndsWithWwwBlank(pre))
    requires IsUrlSpan(t)
    requires post == [] || IsSpace(post[0])
    ensures MaskUrls(pre + t + post) == MaskUrls(pre) + " URL " + MaskUrls(post)
  {
    var s := pre + t + post;
    assert |pre + t| == |pre| + |t|;
    calc {
      MaskUrls(s);
      == { ConcatAssoc(pre, t, post); UrlScanSplits(s, pre, t + post); }
      MaskUrls(pre) + Sub(UrlPattern, s, |pre|);
      == { UrlSpanReplaced(pre, t, post); }
      MaskUrls(pre) + (" URL " + Sub(UrlPattern, s, |pre| + |t|));
      == { UrlScanShifts(s, pre + t, post); }
      MaskUrls(pre) + (" URL " + MaskUrls(post));
      == { ConcatAssoc(MaskUrls(pre), " URL ", MaskUrls(post)); }
      MaskUrls(pre) + " URL " + MaskUrls(post);
    }
  }

  /** A whitespace-delimited token that starts with `http` or `www` is
    * replaced whole by " URL ". */
  lemma UrlTokenInContext(pre: string, t: string, post: string)
    requires pre == [] || (IsSpace(pre[|pre| - 1]) && !EndsWithWwwBlank(pre))
    requires IsUrlToken(t) && forall k :: 0 <= k < |t| ==> !IsSpace(t[k])
    requires post == [] || IsSpace(post[0])
    ensures MaskUrls(pre + t + post) == MaskUrls(pre) + " URL " + MaskUrls(post)
  {
    if t[..4] != "http" {
      assert t[..3] == t[..4][..3];
      assert IsSpace('\n');
    }
    UrlSpanInContext(pre, t, post);
  }

  /** `www`, any character but a newline (a blank included) and a
    * whitespace-free run are replaced together by " URL ". */
  lemma WwwAnyCharInContext(pre: string, c: char, u: string, post: string)
    requires pre == [] || (IsSpace(pre[|pre| - 1]) && !EndsWithWwwBlank(pre))
    requires !IsNewline(c)
    requires u != [] && forall k :: 0 <= k < |u| ==> !IsSpace(u[k])
    requires post == [] || IsSpace(post[0])
    ensures MaskUrls(pre + "www" + [c] + u + post) == MaskUrls(pre) + " URL " + MaskUrls(post)
  {
    var t := "www" + [c] + u;
    assert t[..3] == "www" && t[3] == c;
    assert forall k :: 4 <= k < |t| ==> t[k] == u[k - 4];
    assert pre + "www" + [c] + u + post == pre + t + post;
    UrlSpanInContext(pre, t, post);
  }

  /** Where the URL expression can start inside a whitespace-free token: at
    * `http` or `www`, with at least five characters of the token from there. */
  predicate UrlStartsAt(t: string, j: nat) {
    j + 4 < |t| && (LiteralAt(t, j, "http") || LiteralAt(t, j, "www"))
  }

  /** Inside a whitespace-free text, the URL expression matches exactly where
    * a URL can start, and then runs to the end of the text. */
  lemma UrlMatchInToken(t: string, k: nat)
    requires k < |t| && forall m :: 0 <= m < |t| ==> !IsSpace(t[m])
    ensures MatchAt(UrlPattern, t, k) == if UrlStartsAt(t, k) then Some(|t|) else None
  {
    if k + 4 < |t| {
      assert !IsSpace(t[k + 3]) && !IsSpace(t[k + 4]);
      RunEndAt(t, k + 4, |t|, IsNonSpace);
    }
  }

  /** A whitespace-free token is cut at the first place a URL can start: the
    * part before it stays and the rest becomes " URL ", so `(www.site.com)`
    * becomes `( URL `. */
  lemma UrlInsideToken(t: string, j: nat)
    requires forall m :: 0 <= m < |t| ==> !IsSpace(t[m])
    requires UrlStartsAt(t, j) && forall k :: 0 <= k < j ==> !UrlStartsAt(t, k)
    ensures MaskUrls(t) == t[..j] + " URL "
  {
    forall k | 0 <= k < j
      ensures MatchAt(UrlPattern, t, k).None?
    {
      UrlMatchInToken(t, k);
    }
    SubSkip(UrlPattern, t, 0, j);
    UrlMatchInToken(t, j);
    SubStep(UrlPattern, t, j);
  }

  /** A whitespace-free token where no URL can start is left as it is. */
  lemma UrlFreeToken(t: string)
    requires forall m :: 0 <= m < |t| ==> !IsSpace(t[m])
    requires forall k :: 0 <= k < |t| ==> !UrlStartsAt(t, k)
    ensures MaskUrls(t) == t
  {
    forall k | 0 <= k < |t|
      ensures MatchAt(UrlPattern, t, k).None?
    {
      UrlMatchInToken(t, k);
    }
    SubIdentity(UrlPattern, t);
  }

  /** A URL in brackets loses its closing bracket with it: `(www.site.com)`
    * becomes `( URL `. */
  lemma BracketedUrl(u: string)
    requires |u| >= 4 && (u[..4] == "http" || u[..3] == "www")
    requires forall m :: 0 <= m < |u| ==> !IsSpace(u[m])
    ensures MaskUrls("(" + u + ")") == "( URL "
  {
    var t := "(" + u + ")";
    assert forall m :: 1 <= m <= |u| ==> t[m] == u[m - 1];
    assert t[1..5] == u[..4];
    assert t[1..4] == u[..3];
    assert t[0..4][0] == '(' && t[0..3][0] == '(';
    UrlInsideToken(t, 1);
    assert t[..1] == "(";
  }

  /** The unescaped dot: `www` and a space followed by a word is a URL. */
  lemma WwwSpaceIsUrl()
    ensures MaskUrls("www example") == " URL "
  {
    var s := "www example";
    assert s[0..3] == "www";
    assert RunEnd(s, 4, IsNonSpace) == |s|;
    SubStep(UrlPattern, s, 0);
  }

  /** The dot does not match a newline, so `www` and a newline stays. */
  lemma WwwNewlineIsNotUrl()
    ensures MaskUrls("www\nexample") == "www\nexample"
  {
    var s := "www\nexample";
    forall j | 0 <= j < |s|
      ensures MatchAt(UrlPattern, s, j).None?
    {
      if j + 4 < |s| {
        assert s[j..j + 4][0] == s[j];
        if j == 1 || j == 2 {
          assert s[j..j + 3][3 - j] == '\n';
        } else if j > 2 {
          assert s[j..j + 3][0] == s[j];
        }
      }
    }
    SubIdentity(UrlPattern, s);
  }

  /** `www` and a blank swallows the token after it, URL or not. */
  lemma WwwBlankSwallowsNextToken()
    ensures MaskUrls("www http://x.io") == " URL "
  {
    var s := "www http://x.io";
    assert s[0..3] == "www";
    assert RunEnd(s, 4, IsNonSpace) == |s|;
    SubStep(UrlPattern, s, 0);
  }
}

=== FILE: wrappers.dfy ===
/** Option and Result, the two failure-carrying datatypes the engine model uses. */
module Wrappers {

  /** A value that may be absent (Python's `None`). */
  datatype Option<+T> = None | Some(value: T)

  /** The outcome of an operation that either produces a value or raises. */
  datatype Result<+R, +E> = Success(value: R) | Failure(error: E)
}
